=== FILE: README.md ===
# ssl-monitor in Dafny

A model of the logic inside ssl-monitor, a small web application that
watches the TLS certificates of a list of websites. It keeps the sites in
one JSON document, probes each site's certificate and classifies it as
good, expiring or expired. It raises an alert for the last two, lets users
add sites one by one or in bulk, and answers a chat assistant's lookups.
The model keeps the pure, sequential parts of this and proves what they
promise.

The modules follow the program's files:

- `Records` (records.dfy): the site record and its status values. `None`
  plays the part of the "Unknown" sentinel.
- `Sequences` (sequences.dfy): a first-match search and a regrouping step
  shared by the proofs over concatenations.
- `Store` (store.dfy): the store in `app/models.py`.
  - Seed import, and loading with the seed fallback.
  - Add, with the duplicate-url refusal and the related-domain merge.
  - Remove, get and update by id.
  - The whole-collection save, and each operation as load, change, write.
- `Certificates` (certificates.dfy): the certificate pipeline in
  `app/utils.py`.
  - The 30-day classifier and hostname extraction.
  - The per-site refresh and the `same_cert` correlation of related domains.
  - The alert decision, and `check_certificates` as a whole.
- `Routes` (routes.py's handlers, routes.dfy).
  - URL normalisation and related-domain parsing on the add form.
  - Bulk-import splitting, and the domain pattern as `re.match` applies it,
    which is a prefix match.
  - The bulk-import tally, and the per-site check route.
- `Chat` (chat.dfy): the chat assistant's helpers in `app/chatbot.py`.
  - The errored-site listing and the case-insensitive first-match search.
  - The suggested questions, and the certificate report with its `valid`
    flag.
- `PyStrings` (pystrings.dfy): the Python string methods the program relies
  on, with their round trips.
  - `str.replace` with an empty replacement.
  - `split` on one character, and `splitlines`.
  - `strip`, `lower` and `in`.

The certificate probe is an oracle, `Prober = string -> Probe`. For a
hostname it answers with the certificate's `notAfter` instant, the clock
reading and the optional issuer and subject names. Otherwise it reports a
DNS, TLS or other failure. Instants are integers in microseconds.

- Days remaining is the floor of the difference in whole days. This is what
  Python's `timedelta.days` gives.
- An expiry date is the day ordinal of `notAfter`.

The JSON files are an abstract `Disk`: the stored collection and the seed
list, each `None` when the file is missing or unreadable. Every operation
takes a `saveOk` flag that stands for whether its writes succeed.

The model keeps these behaviours of the code as they are:

- Ids come from the collection's length plus one. After a record other than
  the last is removed, the next add repeats an id (`Store.IdReuseAfterRemove`).
- Removing the only remaining record empties the stored document, so the next load
  imports the seed again.
- URL normalisation tests `startswith("http")`, so a bare domain such as
  `httpbin.org` is kept without a scheme.
- Hostname extraction removes every occurrence of `https://` and `http://`,
  not just a leading one, then cuts at the first `/`.
- The suggested question for an errored site removes the schemes but does
  not cut the path.
- The domain pattern constrains only a prefix of the text. Anything may
  follow the first two letters after the first dot.
- The classifier's threshold is the constant 30 in `app/utils.py`. The
  configurable `EXPIRING_THRESHOLD` in `config.py` is not consulted.

## Model

| member | source | states |
|---|---|---|
| Store.SeedWebsites | app/models.py:21-42 | a missing or unreadable seed gives no sites; otherwise one site per entry in seed order, with ids 1..n, status unknown, no expiry or days, the name falling back to the url, and url and related list defaulting to empty |
| Store.SeedIdsDistinct | app/models.py:30-32 | seeding never gives two sites the same id |
| Store.Load | app/models.py:56-75 | a non-empty stored collection is returned untouched and nothing is written; otherwise the seed import is returned, and it is written only when it is non-empty and the write succeeds |
| Store.LoadStable | app/models.py:65-73 | a load right after a load sees the same collection and writes nothing more, so the seed is imported at most once |
| Store.SaveThenLoad | app/models.py:87-90 | what is written is what the next load returns, except that an empty collection falls back to the seed |
| Store.FindUrl | app/models.py:109-110 | the index of the first record with the url, absent exactly when no record has it |
| Store.FindId | app/models.py:172-174 | the index of the first record with the id, absent exactly when no record has it |
| Store.MergeRelated | app/models.py:114-122 | the old related list is a prefix of the merge, every added domain is in it, and nothing else enters it |
| Store.MergeAppendsFirstNew | app/models.py:117-119 | the merge appends, in argument order, the added domains that were not already present |
| Store.FirstNewMembers | app/models.py:117-119 | a domain is appended exactly when it is among the added ones and not already present |
| Store.FirstNewDistinct | app/models.py:117-119 | no domain is appended twice, even when the argument repeats it |
| Store.MergeNoDuplicates | app/models.py:117-119 | a duplicate-free related list stays duplicate-free |
| Store.MergePresent | app/models.py:117-119 | merging domains that are all present already changes nothing |
| Store.MergeIdempotent | app/models.py:117-119 | merging the same domains twice gives what merging them once gives |
| Store.AddTo | app/models.py:106-138 | refused exactly when the url exists and no related domains are given; a new url appends one unprobed record with id length+1, name defaulting to the url and today's date, leaving earlier records alone; an existing url gets its related list merged and no other record changes |
| Store.AddToUrls | app/models.py:109-136 | after an accepted add the urls present are the old ones plus the added url |
| Store.AddIdempotent | app/models.py:109-124 | repeating an add of the same url and related domains leaves the collection as it was, and without related domains is refused |
| Store.RemoveFrom | app/models.py:153-158 | refused exactly when no record has the id; otherwise only the first such record goes and the others keep their order |
| Store.GetFrom | app/models.py:172-176 | absent exactly when no record has the id; otherwise the first record with that id |
| Store.RemoveThenGet | app/models.py:153-176 | after a remove the id is no longer found exactly when it was held by one record only |
| Store.IdReuseAfterRemove | app/models.py:127-128 | removing a record other than the last and then adding a new url gives the last two records the same id |
| Store.UpdateIn | app/models.py:191-196 | refused exactly when no record has the id; otherwise only the first such record is patched, field by field, and every other record is unchanged |
| Store.UpdateThenGet | app/models.py:191-194 | an update that keeps the id is what the next get returns |
| Store.UpdateNoChange | app/models.py:191-194 | an update without fields leaves the collection unchanged |
| Store.FullPatchRestores | app/models.py:193 | writing a whole record over a stored one gives that record, keeping the stored related status when the new one has none |
| Store.AddWebsite | app/models.py:94-138 | answers true exactly when the add is accepted and the write succeeds; then the next load sees the changed collection, and otherwise it sees the old one; the seed document is never touched |
| Store.RemoveWebsite | app/models.py:140-158 | answers true exactly when the id exists and the write succeeds; then the next load sees the collection without the record, or the seed when it became empty; the seed document is never touched |
| Store.UpdateWebsite | app/models.py:178-196 | answers true exactly when the id exists and the write succeeds; then the next load sees the patched collection, and otherwise the old one; the seed document is never touched |
| Store.GetWebsite | app/models.py:160-176 | returns the first record with the id in the collection a load sees, and leaves what the next load sees and the seed document unchanged |
| Store.AddTwiceRejected | app/models.py:109-124 | the second add of the same url without related domains answers false and changes nothing |
| Certificates.WholeDays | app/utils.py:48 | the whole days of a span are rounded toward minus infinity, as `timedelta.days` is |
| Certificates.Classify | app/utils.py:50-56 | expired exactly when days <= 0, expiring exactly when 0 < days <= 30, good exactly when days > 30 |
| Certificates.ClassifyByInstant | app/utils.py:45-56 | expired exactly when less than one day separates now from `notAfter`; good exactly when at least 31 days do |
| Certificates.ClassifyMonotone | app/utils.py:50-56 | fewer days remaining never gives a less severe status |
| Certificates.GetCertificateExpiry | app/utils.py:28-65 | the status is never unknown; it is error exactly when the probe fails, and expiry and days are then absent; otherwise they are the probe's day ordinal and floored days, and the status is their classification |
| Certificates.Hostname | app/utils.py:110 | the hostname has no '/', and it is the longest '/'-free prefix of the url once every scheme occurrence is removed |
| Certificates.HostnameOfBare | app/utils.py:110 | a '/'-free domain is its own hostname |
| Certificates.HostnameOfUrl | app/utils.py:110 | for a '/'-free domain d, the hostname of "https://" + d and of "http://" + d is d |
| Certificates.RelatedEntry | app/utils.py:128-145 | an entry keeps the related domain as given and its hostname, is never unknown, and takes its status, expiry and days from probing the related hostname (error exactly when that probe fails), and flags the same certificate exactly when both probes succeed with the same expiry day |
| Certificates.RelatedEntries | app/utils.py:125-145 | one entry per related domain, in the same order |
| Certificates.CheckSite | app/utils.py:117-145 | id, url, name, added date and related domains are kept; the status is never unknown; status, expiry and days are those of probing the site's own hostname, so error exactly when that probe fails and otherwise the status classifies the days; `related_status` is one entry per related domain, in order, each built from the site's own result and the related probe |
| Certificates.Probed | app/utils.py:109-114 | a site is kept exactly when its hostname is non-empty |
| Certificates.ProbedConcat | app/utils.py:109-114 | the kept sites keep their input order |
| Certificates.SameCertHosts | app/utils.py:151-155 | an alert lists exactly the related hostnames flagged as sharing the certificate |
| Certificates.AlertOf | app/utils.py:148-168 | at most one alert per site, sent exactly when a topic is set and the status is expiring or expired; it names the site's hostname and status, and exactly the related hostnames flagged as sharing the certificate |
| Certificates.AlertsFor | app/utils.py:147-170 | no alerts without a topic, no more alerts than sites, every alert is due, and none at all exactly when no site is due one |
| Certificates.AlertsForConcat | app/utils.py:147-170 | alerts are raised site by site: the alerts of two lists in a row are the first list's alerts followed by the second's |
| Certificates.AlertsForOne | app/utils.py:148-168 | a single site raises one alert, its own, exactly when it is due, and none otherwise |
| Certificates.CheckCertificates | app/utils.py:96-172 | the result holds the refreshed form of every site with a hostname, in input order, and the alerts are those the refreshed sites are due |
| Certificates.CheckedSitesClassified | app/utils.py:120-122 | after a check no site is unknown, error goes with an absent expiry and with a failed probe of the site's hostname, and identity fields are those of the input site |
| Routes.NormalizeUrl | app/routes.py:57-58 | the result starts with "http"; a url already starting with "http" is kept, any other gets "https://" in front |
| Routes.NormalizeIdempotent | app/routes.py:57-58 | normalising twice is normalising once |
| Routes.NormalizeKeepsHost | app/routes.py:57-58 | normalising a '/'-free domain does not change its hostname |
| Routes.Cleaned | app/routes.py:64-68 | each kept piece is stripped and non-empty, and there are no more of them than pieces |
| Routes.CleanedMembers | app/routes.py:64-68 | a text is kept exactly when it is the non-empty stripped form of some piece |
| Routes.CleanedConcat | app/routes.py:64-68 | pieces are cleaned one by one, so the kept ones stay in input order |
| Routes.NormalizeAll | app/routes.py:69-72 | every kept domain is normalised, in order |
| Routes.ParseRelatedDomains | app/routes.py:61-72 | an empty field gives no domains; otherwise at most one per comma plus one, each starting with "http" |
| Routes.ParseRelatedOfList | app/routes.py:61-72 | a comma-joined list of comma-free entries parses to those entries stripped, blanks dropped, normalised, in order |
| Routes.AddRequest | app/routes.py:46-82 | an empty url is refused without touching the store; otherwise the reply is success exactly when the store accepts the normalised url with the parsed related domains and writes it |
| Routes.AddBareThenHttps | app/routes.py:56-58 | a domain added bare and then with "https://" is the same site, so the second add is refused |
| Routes.BulkDomains | app/routes.py:131-137 | every entry is stripped and non-empty; with a comma there are at most commas + 1 entries, and without one no entry holds a line break |
| Routes.BulkDomainsMembers | app/routes.py:131-137 | with a comma the entries are exactly the non-empty stripped comma pieces; without one, exactly the non-empty stripped lines |
| Routes.BulkCommaList | app/routes.py:131-137 | comma-separated entries come back one per entry, stripped, blanks dropped, in the order typed |
| Routes.BulkLinesCons | app/routes.py:134-137 | without a comma, a line ended by "\n" or "\r\n" gives its stripped domain, if any, followed by the domains of the remaining lines |
| Routes.BulkLinesBreak | app/routes.py:134-137 | the same for a line ended by any other boundary `splitlines` recognises, a lone "\r" included |
| Routes.BulkSingleLine | app/routes.py:134-137 | a comma-free text of one line, such as the final unterminated one, gives its stripped domain, or nothing when it is blank |
| Routes.StripNoLineBreak | app/routes.py:134 | stripping a line keeps it free of line breaks |
| Routes.ValidDomainMatches | app/routes.py:149 | the operational test implies the pattern matches |
| Routes.MatchIsValidDomain | app/routes.py:149 | the pattern matches only texts the operational test accepts |
| Routes.ValidDomainIsPattern | app/routes.py:149 | the pattern matches exactly when the text before the first '.' is a 2-63 character label and two ASCII letters follow that '.' |
| Routes.ValidDomainExtends | app/routes.py:149 | anything may follow an accepted text |
| Routes.ShortLabelRejected | app/routes.py:149 | a one-character first label, as in "a.com", is rejected |
| Routes.BulkImport | app/routes.py:127-165 | no domains means no store call; otherwise added + skipped is the number of domains, nothing is added when writes fail, earlier records stay, each new record has url "https://" + d and name d for an accepted d, and with working writes every accepted domain ends up present; no new record repeats the url of a record before it, so a domain already stored or repeated in the text is counted as skipped |
| Routes.OneDomainAddedOnce | app/routes.py:147-165 | a text naming one domain, however many times, adds at most one record |
| Routes.CheckRoute | app/routes.py:100-120 | not found exactly when the id is absent; failed exactly when its url has no hostname; when refreshed with a working write the stored collection is the old one with only the first record holding the id replaced by its refreshed form, which the next get returns, and in every other case the stored collection is unchanged; the alerts are the refreshed record's own alert when due and none otherwise; the seed document is never touched |
| Routes.RefreshedIsChecked | app/routes.py:109-113 | writing the refreshed record back makes it what the next get returns |
| Chat.ErroredSites | app/chatbot.py:152-162 | a record is listed exactly when its status is none of good, expiring and expired |
| Chat.ErroredConcat | app/chatbot.py:152-162 | the listing keeps the stored order |
| Chat.ErroredAfterCheck | app/chatbot.py:152-162 | right after a check the listing holds exactly the records whose probe failed |
| Chat.FindDomain | app/chatbot.py:188-202 | nothing is found exactly when no record matches; otherwise the first record whose lower-cased name or url contains the lower-cased query |
| Chat.EmptyQueryFindsFirst | app/chatbot.py:189-190 | an empty query finds the first record |
| Chat.FindIgnoresCase | app/chatbot.py:189-190 | lower-casing the query does not change the answer |
| Chat.SuggestedQuestions | app/chatbot.py:320-333 | the four fixed questions in order, then one question for each of the first two errored sites at most |
| Chat.SuggestionNamesDomain | app/chatbot.py:329-331 | the question for a site stored as "https://" + d names d |
| Chat.CheckSslCertificate | app/chatbot.py:35-88 | the domain is reduced to its hostname; success exactly when the probe answers, with floored days, valid exactly when days > 0, issuer defaulting to "Unknown" and subject to the domain; DNS and TLS failures are told apart |
| Chat.AssistantAgreesWithMonitor | app/chatbot.py:50-65 | on the same probe answer the assistant succeeds exactly when the monitor reports no error, reports the same days, and calls the certificate valid exactly when the monitor does not say expired |
| PyStrings.RemoveAll | app/utils.py:110 | removing a pattern never adds characters |
| PyStrings.RemoveAllChanges | app/utils.py:110 | removal changes a text only if the pattern occurs in it |
| PyStrings.RemoveAllLeading | app/utils.py:110 | a leading occurrence is removed along with the rest |
| PyStrings.RemoveAllInterior | app/utils.py:110 | an occurrence after a stretch that cannot start one is removed too, the stretch kept: removal is not limited to a leading occurrence |
| PyStrings.Split | app/routes.py:64 | at least one piece, no piece holds the separator, and the first is the text before the first separator |
| PyStrings.SplitCount | app/routes.py:64 | one piece more than separators |
| PyStrings.SplitJoin | app/routes.py:64 | joining the pieces back gives the text |
| PyStrings.JoinSplit | app/routes.py:64 | separator-free pieces come back from splitting their join |
| PyStrings.SplitLines | app/routes.py:134 | no lines exactly for the empty text; no line holds a line break, and every character of a line comes from the text |
| PyStrings.SplitLinesCons | app/routes.py:134 | a line ended by "\n" or "\r\n" is split off whole, and the rest splits on its own |
| PyStrings.SplitLinesBreak | app/routes.py:134 | a line ended by any single boundary ("\n", a "\r" not followed by "\n", "\v", "\f", U+001C to U+001E, U+0085, U+2028, U+2029) is split off whole, and the rest splits on its own |
| PyStrings.SplitLinesLast | app/routes.py:134 | a non-empty text without a boundary is one line, kept whole |
| PyStrings.Strip | app/routes.py:64 | the result is a slice of the text with only whitespace cut on either side, and neither starts nor ends with whitespace |
| PyStrings.Lower | app/chatbot.py:189-190 | each character is lower-cased in place |
| PyStrings.LowerIdempotent | app/chatbot.py:189-190 | lower-casing twice is lower-casing once |
| PyStrings.ContainsAt | app/chatbot.py:189-190 | containment holds exactly when the needle occurs at some index |

## Left out

- TLS sockets, handshakes and certificate parsing (`app/utils.py:28-45`, `app/chatbot.py:40-56`) become the `Prober` oracle.
- The clock and `datetime` parsing and formatting are left out. Instants, and the clock reading, are integers the probe supplies, and a date is a day ordinal.
- Certificates.CheckSite: an expiry date is stored as a day ordinal, not as the `%Y-%m-%d` text. Equal ordinals are equal texts.
- Certificates.RelatedEntry: `same_cert` is a boolean. When either probe fails, the code's `and` chain stores Python's falsy `None` rather than `False`; otherwise it stores the comparison's boolean.
- Certificates.CheckCertificates: each hostname gets one probe answer per call. The oracle does not model a certificate changing between two probes of the same host in one call.
- Certificates.AlertOf: the message text and the SNS publish call (`app/utils.py:67-94`, `157-168`) are out. Only the decision, hostname, status and listed hosts are kept.
- JSON reading, writing and `os.makedirs` are out: the files are the abstract `Disk`.
- Store.AddWebsite: a failed write is one `saveOk` flag per call, and a partly written file is not modelled. The same goes for the other store operations.
- Store.Load: a seed or store file that cannot be parsed is modelled as missing. The code's broad `except` treats both alike.
- Store.UpdateIn: the patch has the record's fixed keys. `dict.update` with keys outside the record is not modelled.
- Flask routing, templates, `flash` messages, redirects and request objects are out. The routes' replies are datatypes.
- Chat.FindDomain: returns the whole record where the code returns a dictionary projection of some of its fields. The same holds for `Chat.ErroredSites`.
- Chat.CheckSslCertificate: the error message texts are not modelled. Only the error kind is.
- Chat.AssistantAgreesWithMonitor: the agreement holds for one shared probe answer only. The monitor connects with pyOpenSSL without certificate verification or SNI (`app/utils.py:30-39`). The assistant uses `ssl.create_default_context()` with `server_hostname` (`app/chatbot.py:40-45`), which checks the chain, the hostname and validity. So for an expired or untrusted certificate the monitor reports expired while the assistant's handshake fails with an SSL error, and behind name-based virtual hosting the two can see different certificates. The model does not represent these differences.
- PyStrings.Lower: folds ASCII letters only. Full Unicode `str.lower()` is not modelled.
- `dns_lookup`, the agent, its system prompt and `chat_with_agent` in `app/chatbot.py` call foreign services.
- `app/scheduler.py` is a timed loop of load, check and save around the modelled operations.
- `config.py` and `run.py` read the environment and start the process.
- Races between the web process and the scheduler are out: both load, change and save without locking, and the model is sequential.

=== FILE: certificates.dfy ===
/** The certificate-status pipeline: classify each site's certificate from a
    probe, correlate its related domains, and decide which alerts to send.
    The TLS handshake is an oracle from hostname to probe outcome. */
module Certificates {
  import opened Records
  import opened PyStrings
  import opened Sequences

  /** Instants are integer microseconds; a day is a whole number of them. */
  const DayMicros: int := 86_400_000_000

  /** The fixed "expiring soon" threshold of the classifier, in days. */
  const ExpiringThreshold: int := 30

  /** What one TLS probe reports: the certificate's "not after" instant and
      the clock reading taken right after, or the kind of failure. */
  datatype Probe =
    | Expires(notAfter: int, clock: int, issuer: Option<string>, subjectCn: Option<string>)
    | DnsFailure
    | TlsFailure
    | OtherFailure

  type Prober = string -> Probe

  /** Whole days in a span, rounded down as `timedelta.days` does, so a span
      just short of a day in the past counts as -1. */
  function WholeDays(span: int): (d: int)
    ensures d * DayMicros <= span < (d + 1) * DayMicros
  {
    span / DayMicros
  }

  function DaysLeft(p: Probe): int
    requires p.Expires?
  {
    WholeDays(p.notAfter - p.clock)
  }

  /** The calendar day of the expiry instant, as `strftime('%Y-%m-%d')`
      renders it, as a day ordinal. */
  function ExpiryDay(p: Probe): int
    requires p.Expires?
  {
    WholeDays(p.notAfter)
  }

  /** The classifier of `get_certificate_expiry`. */
  function Classify(days: int): (s: Status)
    ensures s == Expired <==> days <= 0
    ensures s == Expiring <==> 0 < days <= ExpiringThreshold
    ensures s == Good <==> days > ExpiringThreshold
  {
    if days <= 0 then Expired else if days <= ExpiringThreshold then Expiring else Good
  }

  /** Read on the instants: a certificate is expired once less than one
      whole day is left, expiring while less than 31 whole days are left. */
  lemma ClassifyByInstant(p: Probe)
    requires p.Expires?
    ensures Classify(DaysLeft(p)) == Expired <==> p.notAfter - p.clock < DayMicros
    ensures Classify(DaysLeft(p)) == Good <==> p.notAfter - p.clock >= (ExpiringThreshold + 1) * DayMicros
  {
    var d := DaysLeft(p);
    var span := p.notAfter - p.clock;
    if d <= 0 {
      assert (d + 1) * DayMicros <= DayMicros;
    } else {
      assert d * DayMicros >= DayMicros;
    }
    if d > ExpiringThreshold {
      assert d * DayMicros >= (ExpiringThreshold + 1) * DayMicros;
    } else {
      assert (d + 1) * DayMicros <= (ExpiringThreshold + 1) * DayMicros;
    }
  }

  /** How far a status is from "good"; an error ranks with an expired
      certificate, since neither has a usable expiry. */
  function Severity(s: Status): nat {
    match s
    case Good => 0
    case Expiring => 1
    case Expired => 2
    case Error => 2
    case Unknown => 2
  }

  /** Fewer days left never gives a milder status. */
  lemma ClassifyMonotone(fewer: int, more: int)
    requires fewer <= more
    ensures Severity(Classify(fewer)) >= Severity(Classify(more))
  {
  }

  /** The probe result as `get_certificate_expiry` reports it, with the
      expiry already rendered as a day. */
  datatype CertInfo = CertInfo(expiryDay: Option<int>, status: Status, daysRemaining: Option<int>)

  /** `get_certificate_expiry`: every failure becomes status "error" with
      both date fields "Unknown"; a success is classified. */
  function GetCertificateExpiry(hostname: string, probe: Prober): (r: CertInfo)
    ensures r.status != Unknown
    ensures r.status == Error <==> !probe(hostname).Expires?
    ensures r.expiryDay.Some? <==> probe(hostname).Expires?
    ensures r.daysRemaining.Some? <==> probe(hostname).Expires?
    ensures probe(hostname).Expires? ==>
      && r.expiryDay.value * DayMicros <= probe(hostname).notAfter < (r.expiryDay.value + 1) * DayMicros
      && r.daysRemaining.value * DayMicros <= probe(hostname).notAfter - probe(hostname).clock
      && probe(hostname).notAfter - probe(hostname).clock < (r.daysRemaining.value + 1) * DayMicros
      && r.status == Classify(r.daysRemaining.value)
  {
    var p := probe(hostname);
    if p.Expires? then CertInfo(Some(ExpiryDay(p)), Classify(DaysLeft(p)), Some(DaysLeft(p)))
    else CertInfo(None, Error, None)
  }

  /** The url with every "https://" and then every "http://" removed. */
  function DropSchemes(url: string): string {
    RemoveAll(RemoveAll(url, "https://"), "http://")
  }

  /** Hostname extraction: drop the schemes, then keep what precedes the
      first '/'. */
  function Hostname(url: string): (h: string)
    ensures '/' !in h
    ensures StartsWith(DropSchemes(url), h)
    ensures |h| < |DropSchemes(url)| ==> DropSchemes(url)[|h|] == '/'
  {
    var t := DropSchemes(url);
    assert t[..Find(t, '/')] == t[..|Split(t, '/')[0]|];
    Split(t, '/')[0]
  }

  lemma DropSchemesHttps(d: string)
    requires '/' !in d
    ensures DropSchemes("https://" + d) == d
  {
    RemoveAllLeading("https://", d);
    RemoveAllAbsent(d, "https://", '/');
    RemoveAllAbsent(d, "http://", '/');
  }

  lemma DropSchemesHttp(d: string)
    requires '/' !in d
    ensures DropSchemes("http://" + d) == d
  {
    var u := "http://" + d;
    forall i ensures !OccursAt(u, "https://", i) {
      if 0 <= i <= |u| - 8 {
        assert u[i..i + 8][7] == u[i + 7] == d[i];
      }
    }
    RemoveAllChanges(u, "https://");
    RemoveAllLeading("http://", d);
    RemoveAllAbsent(d, "http://", '/');
  }

  /** A slash-free string holds neither scheme, so it is its own hostname. */
  lemma HostnameOfBare(d: string)
    requires '/' !in d
    ensures Hostname(d) == d
  {
    RemoveAllAbsent(d, "https://", '/');
    RemoveAllAbsent(d, "http://", '/');
    assert d[..Find(d, '/')] == d;
  }

  /** A bare domain behind either scheme is its own hostname. */
  lemma HostnameOfUrl(d: string)
    requires '/' !in d
    ensures Hostname("https://" + d) == d
    ensures Hostname("http://" + d) == d
  {
    DropSchemesHttps(d);
    DropSchemesHttp(d);
    assert d[..Find(d, '/')] == d;
  }

  /** One entry of `related_status`. Two certificates count as the same
      when both probes succeeded and they expire on the same day. */
  function RelatedEntry(domain: string, primary: CertInfo, probe: Prober): (e: RelatedStatus)
    ensures e.domain == domain && e.hostname == Hostname(domain)
    ensures e.sameCert <==>
      && primary.expiryDay.Some?
      && probe(Hostname(domain)).Expires?
      && primary.expiryDay.value == ExpiryDay(probe(Hostname(domain)))
    ensures e.status != Unknown
    ensures e.status == Error <==> !probe(Hostname(domain)).Expires?
    ensures var ri := GetCertificateExpiry(Hostname(domain), probe);
      e.status == ri.status && e.expiryDate == ri.expiryDay && e.daysRemaining == ri.daysRemaining
  {
    var host := Hostname(domain);
    var info := GetCertificateExpiry(host, probe);
    RelatedStatus(domain, host, info.status, info.expiryDay, info.daysRemaining,
      primary.expiryDay.Some? && info.expiryDay.Some? && primary.expiryDay.value == info.expiryDay.value)
  }

  function RelatedEntries(domains: seq<string>, primary: CertInfo, probe: Prober): (r: seq<RelatedStatus>)
    ensures |r| == |domains|
    ensures forall i :: 0 <= i < |r| ==> r[i] == RelatedEntry(domains[i], primary, probe)
    decreases |domains|
  {
    if domains == [] then []
    else [RelatedEntry(domains[0], primary, probe)] + RelatedEntries(domains[1..], primary, probe)
  }

  /** The fields a probe cycle never writes. */
  predicate SameIdentity(a: Site, b: Site) {
    a.id == b.id && a.url == b.url && a.name == b.name && a.addedDate == b.addedDate
      && a.relatedDomains == b.relatedDomains
  }

  /** One iteration of `check_certificates` for a site with a hostname:
      status, expiry, days and `related_status` are rewritten, nothing else. */
  function CheckSite(site: Site, probe: Prober): (c: Site)
    ensures SameIdentity(c, site)
    ensures c.status != Unknown
    ensures c.expiryDate.None? <==> c.status == Error
    ensures c.daysRemaining.None? <==> c.status == Error
    ensures c.daysRemaining.Some? ==> c.status == Classify(c.daysRemaining.value)
    ensures c.status == Error <==> !probe(Hostname(site.url)).Expires?
    ensures var info := GetCertificateExpiry(Hostname(site.url), probe);
      && c.status == info.status && c.expiryDate == info.expiryDay && c.daysRemaining == info.daysRemaining
      && c.relatedStatus == Some(RelatedEntries(site.relatedDomains, info, probe))
    ensures c.relatedStatus.Some? && |c.relatedStatus.value| == |site.relatedDomains|
    ensures forall i :: 0 <= i < |site.relatedDomains| ==>
      c.relatedStatus.value[i].domain == site.relatedDomains[i]
      && c.relatedStatus.value[i].hostname == Hostname(site.relatedDomains[i])
  {
    var info := GetCertificateExpiry(Hostname(site.url), probe);
    site.(status := info.status, expiryDate := info.expiryDay, daysRemaining := info.daysRemaining,
      relatedStatus := Some(RelatedEntries(site.relatedDomains, info, probe)))
  }

  /** An alert goes out only when a topic is configured and the site is
      expiring or expired. */
  predicate ShouldAlert(topic: string, s: Status) {
    topic != "" && (s == Expiring || s == Expired)
  }

  /** The decision and the contents that matter of one alert. */
  datatype Alert = Alert(hostname: string, status: Status, sameCertHosts: seq<string>)

  /** The related hostnames an alert lists: those flagged as sharing the
      certificate, in order. */
  function SameCertHosts(entries: seq<RelatedStatus>): (r: seq<string>)
    ensures |r| <= |entries|
    ensures forall h :: h in r <==> exists i :: 0 <= i < |entries| && entries[i].sameCert && entries[i].hostname == h
    decreases |entries|
  {
    if entries == [] then []
    else
      var rest := SameCertHosts(entries[1..]);
      assert forall i :: 1 <= i < |entries| ==> entries[i] == entries[1..][i - 1];
      (if entries[0].sameCert then [entries[0].hostname] else []) + rest
  }

  /** The sites `check_certificates` keeps: those with a non-empty hostname. */
  function Probed(sites: seq<Site>): (r: seq<Site>)
    ensures |r| <= |sites|
    ensures forall s :: s in r <==> s in sites && Hostname(s.url) != ""
    decreases |sites|
  {
    if sites == [] then []
    else
      assert forall s :: s in sites[1..] ==> s in sites;
      (if Hostname(sites[0].url) != "" then [sites[0]] else []) + Probed(sites[1..])
  }

  /** Sites are kept or dropped one by one, so the kept ones stay in input
      order. */
  lemma {:induction false} ProbedConcat(a: seq<Site>, b: seq<Site>)
    ensures Probed(a + b) == Probed(a) + Probed(b)
    decreases |a|
  {
    if a == [] {
      assert a + b == b;
    } else {
      var k := if Hostname(a[0].url) != "" then [a[0]] else [];
      ProbedCons(a, b, k);
      ProbedConcat(a[1..], b);
      ConsAssoc(Probed(a + b), k, Probed(a[1..] + b), Probed(a[1..]), Probed(b), Probed(a));
    }
  }

  lemma ProbedCons(a: seq<Site>, b: seq<Site>, k: seq<Site>)
    requires a != [] && k == (if Hostname(a[0].url) != "" then [a[0]] else [])
    ensures Probed(a + b) == k + Probed(a[1..] + b)
    ensures Probed(a) == k + Probed(a[1..])
  {
    assert (a + b)[1..] == a[1..] + b;
    assert (a + b)[0] == a[0];
  }

  /** The alert one checked site raises, if any. */
  function AlertOf(c: Site, topic: string): (r: seq<Alert>)
    ensures |r| <= 1
    ensures r != [] <==> ShouldAlert(topic, c.status)
    ensures r != [] ==> r[0].status == c.status && r[0].hostname == Hostname(c.url)
    ensures r != [] ==> forall h :: h in r[0].sameCertHosts <==>
      exists i :: 0 <= i < |c.relatedStatus.GetOr([])| && c.relatedStatus.GetOr([])[i].sameCert
        && c.relatedStatus.GetOr([])[i].hostname == h
  {
    if ShouldAlert(topic, c.status)
    then [Alert(Hostname(c.url), c.status, SameCertHosts(c.relatedStatus.GetOr([])))]
    else []
  }

  /** The alerts due for a list of checked sites, one at most per site. */
  function AlertsFor(checked: seq<Site>, topic: string): (r: seq<Alert>)
    ensures |r| <= |checked|
    ensures topic == "" ==> r == []
    ensures forall a :: a in r ==> ShouldAlert(topic, a.status)
    ensures r == [] <==> forall i :: 0 <= i < |checked| ==> !ShouldAlert(topic, checked[i].status)
    decreases |checked|
  {
    if checked == [] then [] else AlertOf(checked[0], topic) + AlertsFor(checked[1..], topic)
  }

  /** Alerts are raised site by site: a list's alerts are its parts'
      alerts in order, and a single site raises what `AlertOf` says. */
  lemma {:induction false} AlertsForConcat(a: seq<Site>, b: seq<Site>, topic: string)
    ensures AlertsFor(a + b, topic) == AlertsFor(a, topic) + AlertsFor(b, topic)
    decreases |a|
  {
    if a == [] {
      assert a + b == b;
    } else {
      var k := AlertOf(a[0], topic);
      AlertsForCons(a, b, topic);
      AlertsForConcat(a[1..], b, topic);
      ConsAssoc(AlertsFor(a + b, topic), k, AlertsFor(a[1..] + b, topic), AlertsFor(a[1..], topic),
        AlertsFor(b, topic), AlertsFor(a, topic));
    }
  }

  lemma AlertsForCons(a: seq<Site>, b: seq<Site>, topic: string)
    requires a != []
    ensures AlertsFor(a + b, topic) == AlertOf(a[0], topic) + AlertsFor(a[1..] + b, topic)
    ensures AlertsFor(a, topic) == AlertOf(a[0], topic) + AlertsFor(a[1..], topic)
  {
    assert (a + b)[1..] == a[1..] + b;
    assert (a + b)[0] == a[0];
  }

  lemma AlertsForOne(c: Site, topic: string)
    ensures AlertsFor([c], topic) == (if ShouldAlert(topic, c.status) then AlertOf(c, topic) else [])
    ensures |AlertsFor([c], topic)| == (if ShouldAlert(topic, c.status) then 1 else 0)
  {
    assert [c][1..] == [];
  }

  /** The outcome of `check_certificates`: the updated sites and the alerts
      sent along the way. */
  datatype CheckRun = CheckRun(sites: seq<Site>, alerts: seq<Alert>)

  /** `check_certificates`: every site with a hostname is probed in input
      order; sites without one are left out of the result. */
  function CheckCertificates(sites: seq<Site>, topic: string, probe: Prober): (r: CheckRun)
    ensures |r.sites| == |Probed(sites)|
    ensures forall i :: 0 <= i < |r.sites| ==> r.sites[i] == CheckSite(Probed(sites)[i], probe)
    ensures r.alerts == AlertsFor(r.sites, topic)
    decreases |sites|
  {
    if sites == [] then CheckRun([], [])
    else
      var rest := CheckCertificates(sites[1..], topic, probe);
      if Hostname(sites[0].url) == "" then
        assert Probed(sites) == Probed(sites[1..]);
        rest
      else
        var c := CheckSite(sites[0], probe);
        CheckStep(sites, rest.sites, c, topic, probe);
        CheckRun([c] + rest.sites, AlertOf(c, topic) + rest.alerts)
  }

  /** The inductive step of `CheckCertificates` for a site that is probed. */
  lemma CheckStep(sites: seq<Site>, rest: seq<Site>, c: Site, topic: string, probe: Prober)
    requires sites != [] && Hostname(sites[0].url) != "" && c == CheckSite(sites[0], probe)
    requires |rest| == |Probed(sites[1..])|
    requires forall i :: 0 <= i < |rest| ==> rest[i] == CheckSite(Probed(sites[1..])[i], probe)
    ensures |[c] + rest| == |Probed(sites)|
    ensures forall i :: 0 <= i < |[c] + rest| ==> ([c] + rest)[i] == CheckSite(Probed(sites)[i], probe)
    ensures AlertsFor([c] + rest, topic) == AlertOf(c, topic) + AlertsFor(rest, topic)
  {
    assert Probed(sites) == [sites[0]] + Probed(sites[1..]);
    ConsMapped(sites[0], Probed(sites[1..]), c, rest, probe);
    assert ([c] + rest)[1..] == rest;
  }

  lemma ConsMapped(s: Site, ps: seq<Site>, c: Site, rest: seq<Site>, probe: Prober)
    requires c == CheckSite(s, probe)
    requires |rest| == |ps| && forall i :: 0 <= i < |rest| ==> rest[i] == CheckSite(ps[i], probe)
    ensures forall i :: 0 <= i < |[c] + rest| ==> ([c] + rest)[i] == CheckSite(([s] + ps)[i], probe)
  {
  }

  /** After a check no kept site is left "unknown", and each keeps its
      identity fields. */
  lemma CheckedSitesClassified(sites: seq<Site>, topic: string, probe: Prober)
    ensures var r := CheckCertificates(sites, topic, probe).sites;
      forall i :: 0 <= i < |r| ==>
        && r[i].status != Unknown
        && (r[i].status == Error <==> r[i].expiryDate.None?)
        && (r[i].status == Error <==> !probe(Hostname(r[i].url)).Expires?)
        && SameIdentity(r[i], Probed(sites)[i])
  {
  }
}

=== FILE: chat.dfy ===
/** The diagnostic assistant's deterministic tools: the errored-domain
    listing, the domain search, the suggested questions, and the
    certificate check it runs on its own. The language model is not part
    of this module. */
module Chat {
  import opened Records
  import opened PyStrings
  import opened Sequences
  import opened Certificates

  /** A record the listing reports: any status other than "good",
      "expiring" or "expired", so "unknown" as well as "error". */
  predicate IsErrored(s: Site) {
    !(s.status == Good || s.status == Expiring || s.status == Expired)
  }

  /** `get_errored_domains` on the loaded collection, in stored order. */
  function ErroredSites(sites: seq<Site>): (r: seq<Site>)
    ensures |r| <= |sites|
    ensures forall s :: s in r <==> s in sites && IsErrored(s)
    decreases |sites|
  {
    if sites == [] then []
    else
      assert forall s :: s in sites[1..] ==> s in sites;
      (if IsErrored(sites[0]) then [sites[0]] else []) + ErroredSites(sites[1..])
  }

  /** The listing works record by record, so it keeps the stored order. */
  lemma {:induction false} ErroredConcat(a: seq<Site>, b: seq<Site>)
    ensures ErroredSites(a + b) == ErroredSites(a) + ErroredSites(b)
    decreases |a|
  {
    if a == [] {
      assert a + b == b;
    } else {
      var k := if IsErrored(a[0]) then [a[0]] else [];
      assert ErroredSites(a + b) == k + ErroredSites(a[1..] + b) by {
        assert (a + b)[1..] == a[1..] + b;
        assert (a + b)[0] == a[0];
      }
      ErroredConcat(a[1..], b);
      ConsAssoc(ErroredSites(a + b), k, ErroredSites(a[1..] + b), ErroredSites(a[1..]), ErroredSites(b), ErroredSites(a));
    }
  }

  /** Right after a check cycle no record is "unknown", so the listing
      holds exactly the records whose probe failed. */
  lemma ErroredAfterCheck(sites: seq<Site>, topic: string, probe: Prober)
    ensures var checked := CheckCertificates(sites, topic, probe).sites;
      forall s :: s in ErroredSites(checked) <==> s in checked && !probe(Hostname(s.url)).Expires?
    ensures var checked := CheckCertificates(sites, topic, probe).sites;
      forall s :: s in ErroredSites(checked) <==> s in checked && s.status == Error && s.expiryDate.None?
  {
    CheckedSitesClassified(sites, topic, probe);
    var checked := CheckCertificates(sites, topic, probe).sites;
    ErroredOfClassified(checked);
    ErroredOfFailedProbe(checked, probe);
  }

  lemma ErroredOfClassified(checked: seq<Site>)
    requires forall i :: 0 <= i < |checked| ==>
      checked[i].status != Unknown && (checked[i].status == Error <==> checked[i].expiryDate.None?)
    ensures forall s :: s in ErroredSites(checked) <==> s in checked && s.status == Error && s.expiryDate.None?
  {
    forall s | s in checked ensures s.status != Unknown && (s.status == Error <==> s.expiryDate.None?) {
      var i :| 0 <= i < |checked| && checked[i] == s;
    }
  }

  lemma ErroredOfFailedProbe(checked: seq<Site>, probe: Prober)
    requires forall i :: 0 <= i < |checked| ==>
      checked[i].status != Unknown && (checked[i].status == Error <==> !probe(Hostname(checked[i].url)).Expires?)
    ensures forall s :: s in ErroredSites(checked) <==> s in checked && !probe(Hostname(s.url)).Expires?
  {
    forall s | s in checked ensures s.status != Unknown && (s.status == Error <==> !probe(Hostname(s.url)).Expires?) {
      var i :| 0 <= i < |checked| && checked[i] == s;
    }
  }

  /** The search test of `get_domain_status`: the lower-cased query occurs
      in the lower-cased name or url. */
  predicate Matches(s: Site, query: string) {
    Contains(Lower(s.name), Lower(query)) || Contains(Lower(s.url), Lower(query))
  }

  /** `get_domain_status`: the first record that matches, if any. */
  function FindDomain(sites: seq<Site>, query: string): (r: Option<Site>)
    ensures r.None? <==> forall i :: 0 <= i < |sites| ==> !Matches(sites[i], query)
    ensures r.Some? ==> exists k :: (0 <= k < |sites| && sites[k] == r.value && Matches(sites[k], query)
      && forall j :: 0 <= j < k ==> !Matches(sites[j], query))
    decreases |sites|
  {
    if sites == [] then None
    else if Matches(sites[0], query) then
      Some(sites[0])
    else
      var rest := FindDomain(sites[1..], query);
      assert forall i :: 1 <= i < |sites| ==> sites[i] == sites[1..][i - 1];
      if rest.Some? then
        var k :| 0 <= k < |sites[1..]| && sites[1..][k] == rest.value && Matches(sites[1..][k], query)
          && forall j :: 0 <= j < k ==> !Matches(sites[1..][j], query);
        assert sites[k + 1] == rest.value;
        rest
      else rest
  }

  /** Every string contains the empty one, so an empty query answers with
      the first record. */
  lemma EmptyQueryFindsFirst(sites: seq<Site>)
    requires sites != []
    ensures FindDomain(sites, "") == Some(sites[0])
  {
    assert Lower("") == "";
    assert StartsWith(Lower(sites[0].name), "");
  }

  /** The search ignores the case of ASCII letters in the query. */
  lemma {:induction false} FindIgnoresCase(sites: seq<Site>, query: string)
    ensures FindDomain(sites, Lower(query)) == FindDomain(sites, query)
    decreases |sites|
  {
    LowerIdempotent(query);
    if sites != [] {
      FindIgnoresCase(sites[1..], query);
    }
  }

  /** The four questions offered whatever the state. */
  const FixedQuestions: seq<string> := [
    "What domains are currently showing errors?",
    "Check the SSL certificate for 45squared.hr",
    "Why might a DNS lookup fail for a domain?",
    "How can I diagnose SSL handshake failures?"
  ]

  const InvestigatePrefix: string := "Investigate the SSL error for "

  /** The question about one errored record: its url without the scheme,
      path included. */
  function Investigate(s: Site): string {
    InvestigatePrefix + DropSchemes(s.url)
  }

  /** `get_suggested_questions`: the fixed questions, then one per errored
      record for at most the first two. */
  function SuggestedQuestions(errored: seq<Site>): (r: seq<string>)
    ensures |r| == 4 + (if |errored| < 2 then |errored| else 2)
    ensures r[..4] == FixedQuestions
    ensures forall i :: 4 <= i < |r| ==> r[i] == Investigate(errored[i - 4])
  {
    var n := if |errored| < 2 then |errored| else 2;
    var extra := seq(n, i requires 0 <= i < n => Investigate(errored[i]));
    QuestionsShape(FixedQuestions, extra, errored);
    FixedQuestions + extra
  }

  lemma QuestionsShape(fixed: seq<string>, extra: seq<string>, errored: seq<Site>)
    requires |fixed| == 4 && |extra| == (if |errored| < 2 then |errored| else 2)
    requires forall i :: 0 <= i < |extra| ==> extra[i] == Investigate(errored[i])
    ensures |fixed + extra| == 4 + |extra| && (fixed + extra)[..4] == fixed
    ensures forall i :: 4 <= i < |fixed + extra| ==> (fixed + extra)[i] == Investigate(errored[i - 4])
  {
  }

  /** For a record stored as "https://" plus a bare domain, the extra
      question names that domain. */
  lemma SuggestionNamesDomain(errored: seq<Site>, d: string)
    requires errored != [] && errored[0].url == "https://" + d && '/' !in d
    ensures SuggestedQuestions(errored)[4] == InvestigatePrefix + d
  {
    DropSchemesHttps(d);
  }

  datatype ErrorKind = DnsError | SslError | GeneralError

  /** The two shapes of `check_ssl_certificate`'s answer. */
  datatype SslReport =
    | Success(domain: string, expiryDay: int, daysRemaining: int, issuer: string, subjectCn: string, valid: bool)
    | Failure(domain: string, errorType: ErrorKind)

  /** `check_ssl_certificate`: the domain is reduced to its hostname, the
      probe's failure kind is reported, and a certificate is valid while at
      least one whole day remains. */
  function CheckSslCertificate(domain: string, probe: Prober): (r: SslReport)
    ensures r.domain == Hostname(domain)
    ensures r.Success? <==> probe(Hostname(domain)).Expires?
    ensures r.Success? ==>
      var p := probe(Hostname(domain));
      && r.daysRemaining * DayMicros <= p.notAfter - p.clock < (r.daysRemaining + 1) * DayMicros
      && r.expiryDay * DayMicros <= p.notAfter < (r.expiryDay + 1) * DayMicros
      && (r.valid <==> r.daysRemaining > 0)
      && r.issuer == p.issuer.GetOr("Unknown")
      && r.subjectCn == p.subjectCn.GetOr(r.domain)
    ensures r.Failure? ==>
      && (r.errorType == DnsError <==> probe(Hostname(domain)).DnsFailure?)
      && (r.errorType == SslError <==> probe(Hostname(domain)).TlsFailure?)
  {
    var host := Hostname(domain);
    match probe(host)
    case Expires(_, _, issuer, subjectCn) =>
      var p := probe(host);
      Success(host, ExpiryDay(p), DaysLeft(p), issuer.GetOr("Unknown"), subjectCn.GetOr(host), DaysLeft(p) > 0)
    case DnsFailure => Failure(host, DnsError)
    case TlsFailure => Failure(host, SslError)
    case OtherFailure => Failure(host, GeneralError)
  }

  /** Given the same probe answer, the assistant and the monitor agree:
      the assistant succeeds exactly when the monitor does not report an
      error, and calls the certificate valid exactly when the monitor does
      not classify it as expired. */
  lemma AssistantAgreesWithMonitor(url: string, probe: Prober)
    ensures var report := CheckSslCertificate(url, probe);
      var info := GetCertificateExpiry(Hostname(url), probe);
      && (report.Success? <==> info.status != Error)
      && (report.Success? ==> (report.valid <==> info.status != Expired))
      && (report.Success? ==> info.daysRemaining == Some(report.daysRemaining))
  {
  }
}

=== FILE: pystrings.dfy ===
/** The handful of Python `str` operations the monitor relies on, with the
    semantics CPython gives them: `startswith`, `replace(old, '')`, `split(sep)`,
    `splitlines()`, `strip()`, ASCII `lower()` and the `in` substring test. */
module PyStrings {

  predicate StartsWith(s: string, prefix: string) {
    |prefix| <= |s| && s[..|prefix|] == prefix
  }

  /** `s.replace(pat, '')`: scans left to right and drops every
      non-overlapping occurrence of `pat`, not only a leading one. */
  function RemoveAll(s: string, pat: string): (r: string)
    requires pat != ""
    ensures multiset(r) <= multiset(s)
    decreases |s|
  {
    if |s| < |pat| then s
    else if s[..|pat|] == pat then
      assert s == s[..|pat|] + s[|pat|..];
      RemoveAll(s[|pat|..], pat)
    else
      assert s == [s[0]] + s[1..];
      [s[0]] + RemoveAll(s[1..], pat)
  }

  /** A string that lacks some character of `pat` holds no occurrence of it,
      so removal leaves it as it is. */
  lemma {:induction false} RemoveAllAbsent(s: string, pat: string, c: char)
    requires pat != "" && c in pat && c !in s
    ensures RemoveAll(s, pat) == s
    decreases |s|
  {
    if |s| >= |pat| {
      assert c !in s[..|pat|] by {
        assert forall k :: 0 <= k < |pat| ==> s[..|pat|][k] == s[k];
      }
      RemoveAllAbsent(s[1..], pat, c);
      assert s == [s[0]] + s[1..];
    }
  }

  /** Removal changes a string only if the pattern occurs in it. */
  lemma {:induction false} RemoveAllChanges(s: string, pat: string)
    requires pat != ""
    ensures RemoveAll(s, pat) == s || exists i :: OccursAt(s, pat, i)
    decreases |s|
  {
    if |s| >= |pat| {
      if s[..|pat|] == pat {
        assert OccursAt(s, pat, 0);
      } else {
        assert RemoveAll(s, pat) == [s[0]] + RemoveAll(s[1..], pat);
        RemoveAllChanges(s[1..], pat);
        if RemoveAll(s[1..], pat) == s[1..] {
          assert s == [s[0]] + s[1..];
        } else {
          var i :| OccursAt(s[1..], pat, i);
          OccursShift(s, pat, i);
        }
      }
    }
  }

  lemma OccursShift(s: string, pat: string, i: int)
    requires s != [] && OccursAt(s[1..], pat, i)
    ensures OccursAt(s, pat, i + 1)
  {
    assert s[1..][i..i + |pat|] == s[i + 1..i + 1 + |pat|];
  }

  /** A leading occurrence is removed, and the rest is processed on its own. */
  lemma RemoveAllLeading(pat: string, s: string)
    requires pat != ""
    ensures RemoveAll(pat + s, pat) == RemoveAll(s, pat)
  {
    assert (pat + s)[..|pat|] == pat;
    assert (pat + s)[|pat|..] == s;
  }

  /** A text that cannot start an occurrence is kept character by character. */
  lemma RemoveAllSkip(s: string, pat: string)
    requires pat != "" && |s| >= |pat| && !StartsWith(s, pat)
    ensures RemoveAll(s, pat) == [s[0]] + RemoveAll(s[1..], pat)
  {
  }

  lemma NoStartAt(s: string, pat: string)
    requires pat != "" && |s| >= |pat| && s[0] != pat[0]
    ensures !StartsWith(s, pat)
  {
    assert s[..|pat|][0] == s[0];
  }

  /** An occurrence after an occurrence-free stretch is removed as well:
      removal is not limited to a leading occurrence. */
  lemma {:induction false} RemoveAllInterior(a: string, pat: string, b: string)
    requires pat != "" && pat[0] !in a
    ensures RemoveAll(a + pat + b, pat) == a + RemoveAll(b, pat)
    decreases |a|
  {
    if a == [] {
      assert a + pat + b == pat + b;
      RemoveAllLeading(pat, b);
    } else {
      var s := a + pat + b;
      assert s[0] == a[0] && s[1..] == a[1..] + pat + b;
      assert a[0] in a;
      NoStartAt(s, pat);
      RemoveAllSkip(s, pat);
      RemoveAllInterior(a[1..], pat, b);
      assert a == [a[0]] + a[1..];
    }
  }

  /** Index of the first `c` in `s`, or `|s|` when there is none. */
  function Find(s: string, c: char): (k: nat)
    ensures k <= |s| && c !in s[..k]
    ensures k < |s| ==> s[k] == c
    decreases |s|
  {
    if s == [] then 0
    else if s[0] == c then 0
    else
      assert s[..1 + Find(s[1..], c)] == [s[0]] + s[1..][..Find(s[1..], c)];
      1 + Find(s[1..], c)
  }

  /** A `c` placed right after a `c`-free string is the first one. */
  lemma {:induction false} FindAfter(a: string, b: string, c: char)
    requires c !in a
    ensures Find(a + [c] + b, c) == |a|
    decreases |a|
  {
    if a != [] {
      FindAfter(a[1..], b, c);
      assert (a + [c] + b)[1..] == a[1..] + [c] + b;
    }
  }

  /** `s.split(sep)`: one piece per separator plus one, the first being the
      text before the first separator; the empty string splits into a single
      empty piece. */
  function Split(s: string, sep: char): (r: seq<string>)
    ensures |r| >= 1
    ensures forall i :: 0 <= i < |r| ==> sep !in r[i]
    ensures r[0] == s[..Find(s, sep)]
    decreases |s|
  {
    var k := Find(s, sep);
    if k == |s| then
      assert s[..k] == s;
      [s]
    else
      assert s == s[..k] + [sep] + s[k + 1..];
      [s[..k]] + Split(s[k + 1..], sep)
  }

  /** There is one piece more than there are separators. */
  lemma {:induction false} SplitCount(s: string, sep: char)
    ensures |Split(s, sep)| == multiset(s)[sep] + 1
    decreases |s|
  {
    var k := Find(s, sep);
    if k < |s| {
      var a, b := s[..k], s[k + 1..];
      SplitCount(b, sep);
      assert |Split(s, sep)| == 1 + |Split(b, sep)|;
      assert s == a + [sep] + b;
      assert multiset(s) == multiset(a) + multiset{sep} + multiset(b);
      assert multiset(a)[sep] == 0;
    } else {
      assert s[..k] == s;
    }
  }

  /** `sep.join(parts)`, the inverse of `Split`. */
  function Join(parts: seq<string>, sep: char): string
    requires |parts| > 0
    decreases |parts|
  {
    if |parts| == 1 then parts[0] else parts[0] + [sep] + Join(parts[1..], sep)
  }

  /** Joining the pieces back restores the text. */
  lemma {:induction false} SplitJoin(s: string, sep: char)
    ensures Join(Split(s, sep), sep) == s
    decreases |s|
  {
    var k := Find(s, sep);
    if k < |s| {
      var tail := s[k + 1..];
      SplitJoin(tail, sep);
      SplitJoinStep(s, sep, k);
      assert s == s[..k] + [sep] + tail;
    } else {
      assert s[..k] == s;
    }
  }

  lemma SplitJoinStep(s: string, sep: char, k: nat)
    requires k == Find(s, sep) && k < |s|
    ensures Join(Split(s, sep), sep) == s[..k] + [sep] + Join(Split(s[k + 1..], sep), sep)
  {
    var parts := Split(s, sep);
    assert parts[0] == s[..k] && parts[1..] == Split(s[k + 1..], sep) by {
      assert parts == [s[..k]] + Split(s[k + 1..], sep);
    }
  }

  /** Separator-free pieces come back unchanged from a split of their join. */
  lemma {:induction false} JoinSplit(parts: seq<string>, sep: char)
    requires |parts| > 0
    requires forall i :: 0 <= i < |parts| ==> sep !in parts[i]
    ensures Split(Join(parts, sep), sep) == parts
    decreases |parts|
  {
    var p := parts[0];
    if |parts| > 1 {
      var rest := Join(parts[1..], sep);
      JoinSplit(parts[1..], sep);
      var s := Join(parts, sep);
      assert s == p + [sep] + rest;
      FindAfter(p, rest, sep);
      assert s[..|p|] == p && s[|p| + 1..] == rest;
      assert Split(s, sep) == [p] + Split(rest, sep);
      assert parts == [p] + parts[1..];
    } else {
      assert Find(p, sep) == |p|;
      assert p[..|p|] == p;
    }
  }

  /** The line boundaries `str.splitlines` recognises. */
  predicate IsLineBreak(c: char) {
    c == '\n' || c == '\r' || c == '\U{000B}' || c == '\U{000C}'
    || ('\U{001C}' <= c <= '\U{001E}') || c == '\U{0085}' || c == '\U{2028}' || c == '\U{2029}'
  }

  predicate NoLineBreak(s: string) {
    forall i :: 0 <= i < |s| ==> !IsLineBreak(s[i])
  }

  /** Index of the first line boundary, or `|s|` when there is none. */
  function LineEnd(s: string): (k: nat)
    ensures k <= |s| && NoLineBreak(s[..k])
    ensures k < |s| ==> IsLineBreak(s[k])
    decreases |s|
  {
    if s == [] || IsLineBreak(s[0]) then 0 else 1 + LineEnd(s[1..])
  }

  /** Every character of `t` occurs in `s`. */
  predicate DrawnFrom(t: string, s: string) {
    forall j :: 0 <= j < |t| ==> t[j] in s
  }

  /** `s.splitlines()`: "\r\n" counts as one boundary, and a trailing
      boundary does not start an extra empty line. */
  function SplitLines(s: string): (r: seq<string>)
    ensures r == [] <==> s == []
    ensures forall i :: 0 <= i < |r| ==> NoLineBreak(r[i]) && DrawnFrom(r[i], s)
    decreases |s|
  {
    if s == [] then []
    else
      var k := LineEnd(s);
      if k == |s| then [s]
      else
        var skip := if s[k] == '\r' && k + 1 < |s| && s[k + 1] == '\n' then 2 else 1;
        var tail := s[k + skip..];
        var rest := SplitLines(tail);
        assert forall j :: 0 <= j < |tail| ==> tail[j] == s[k + skip + j];
        assert DrawnFrom(s[..k], s) by {
          assert forall j :: 0 <= j < k ==> s[..k][j] == s[j];
        }
        [s[..k]] + rest
  }

  lemma {:induction false} LineEndAfter(a: string, c: char, b: string)
    requires NoLineBreak(a) && IsLineBreak(c)
    ensures LineEnd(a + [c] + b) == |a|
    decreases |a|
  {
    if a != [] {
      assert !IsLineBreak(a[0]);
      assert (a + [c] + b)[1..] == a[1..] + [c] + b;
      LineEndAfter(a[1..], c, b);
    } else {
      assert (a + [c] + b)[0] == c;
    }
  }

  /** A line without a boundary is kept whole. */
  lemma SplitLinesLast(s: string)
    requires s != "" && NoLineBreak(s)
    ensures SplitLines(s) == [s]
  {
    LineEndNone(s);
  }

  lemma {:induction false} LineEndNone(s: string)
    requires NoLineBreak(s)
    ensures LineEnd(s) == |s|
    decreases |s|
  {
    if s != [] {
      assert !IsLineBreak(s[0]);
      LineEndNone(s[1..]);
    }
  }

  /** A line ended by any single boundary is split off whole, and the rest
      is split on its own; a "\r" directly followed by "\n" is the one
      exception, taken as a pair below. */
  lemma SplitLinesBreak(a: string, c: char, b: string)
    requires NoLineBreak(a) && IsLineBreak(c)
    requires c != '\r' || b == [] || b[0] != '\n'
    ensures SplitLines(a + [c] + b) == [a] + SplitLines(b)
  {
    var s := a + [c] + b;
    LineEndAfter(a, c, b);
    assert s[|a|] == c;
    assert s[..|a|] == a && s[|a| + 1..] == b;
  }

  /** A line followed by "\n" or "\r\n" is split off whole, and the rest
      is split on its own. */
  lemma SplitLinesCons(a: string, b: string)
    requires NoLineBreak(a)
    ensures SplitLines(a + "\n" + b) == [a] + SplitLines(b)
    ensures SplitLines(a + "\r\n" + b) == [a] + SplitLines(b)
  {
    var s := a + "\n" + b;
    LineEndAfter(a, '\n', b);
    assert s[..|a|] == a && s[|a| + 1..] == b;
    var t := a + "\r\n" + b;
    assert t == a + ['\r'] + (['\n'] + b);
    LineEndAfter(a, '\r', ['\n'] + b);
    assert t[|a|] == '\r' && t[|a| + 1] == '\n';
    assert t[..|a|] == a && t[|a| + 2..] == b;
  }

  /** The whitespace `str.strip()` removes. */
  predicate IsSpace(c: char) {
    c == ' ' || ('\t' <= c <= '\r') || ('\U{001C}' <= c <= '\U{001F}')
    || c == '\U{0085}' || c == '\U{00A0}' || c == '\U{1680}' || ('\U{2000}' <= c <= '\U{200A}')
    || c == '\U{2028}' || c == '\U{2029}' || c == '\U{202F}' || c == '\U{205F}' || c == '\U{3000}'
  }

  predicate AllSpace(s: string) {
    forall i :: 0 <= i < |s| ==> IsSpace(s[i])
  }

  /** One more space in front of a run of spaces. */
  lemma SpaceCons(s: string, m: nat)
    requires s != [] && IsSpace(s[0]) && m <= |s| - 1 && AllSpace(s[1..][..m])
    ensures AllSpace(s[..1 + m])
  {
    assert s[..1 + m] == [s[0]] + s[1..][..m];
  }

  /** One more space behind a run of spaces. */
  lemma SpaceSnoc(s: string, m: nat)
    requires s != [] && IsSpace(s[|s| - 1]) && m <= |s| - 1
    requires AllSpace(s[..|s| - 1][|s| - 1 - m..])
    ensures AllSpace(s[|s| - 1 - m..])
  {
    assert s[|s| - 1 - m..] == s[..|s| - 1][|s| - 1 - m..] + [s[|s| - 1]];
  }

  function LeadingSpace(s: string): (n: nat)
    ensures n <= |s| && AllSpace(s[..n])
    ensures n < |s| ==> !IsSpace(s[n])
    decreases |s|
  {
    if s != [] && IsSpace(s[0]) then
      var m := LeadingSpace(s[1..]);
      SpaceCons(s, m);
      1 + m
    else 0
  }

  function TrailingSpace(s: string): (n: nat)
    ensures n <= |s| && AllSpace(s[|s| - n..])
    ensures n < |s| ==> !IsSpace(s[|s| - 1 - n])
    decreases |s|
  {
    if s != [] && IsSpace(s[|s| - 1]) then
      var m := TrailingSpace(s[..|s| - 1]);
      SpaceSnoc(s, m);
      1 + m
    else 0
  }

  /** `s.strip()`: the slice of `s` left after removing whitespace from both
      ends; it neither starts nor ends with whitespace. */
  function Strip(s: string): (r: string)
    ensures exists i, j :: 0 <= i <= j <= |s| && r == s[i..j] && AllSpace(s[..i]) && AllSpace(s[j..])
    ensures r != [] ==> !IsSpace(r[0]) && !IsSpace(r[|r| - 1])
  {
    var i := LeadingSpace(s);
    var t := s[i..];
    var n := TrailingSpace(t);
    assert t[..|t| - n] == s[i..|s| - n];
    assert t[|t| - n..] == s[|s| - n..];
    t[..|t| - n]
  }

  function LowerChar(c: char): char {
    if 'A' <= c <= 'Z' then (c as int + 32) as char else c
  }

  /** `s.lower()` restricted to ASCII letters. */
  function Lower(s: string): (r: string)
    ensures |r| == |s|
    ensures forall i :: 0 <= i < |s| ==> r[i] == LowerChar(s[i])
  {
    seq(|s|, i requires 0 <= i < |s| => LowerChar(s[i]))
  }

  lemma LowerIdempotent(s: string)
    ensures Lower(Lower(s)) == Lower(s)
  {
    assert forall i :: 0 <= i < |s| ==> LowerChar(LowerChar(s[i])) == LowerChar(s[i]);
  }

  /** Python's `needle in s`. */
  predicate Contains(s: string, needle: string)
    decreases |s|
  {
    StartsWith(s, needle) || (s != [] && Contains(s[1..], needle))
  }

  predicate OccursAt(s: string, needle: string, i: int) {
    0 <= i <= |s| - |needle| && s[i..i + |needle|] == needle
  }

  /** `Contains` is the usual "occurs at some position" relation. */
  lemma {:induction false} ContainsAt(s: string, needle: string)
    ensures Contains(s, needle) <==> exists i :: OccursAt(s, needle, i)
    decreases |s|
  {
    if StartsWith(s, needle) {
      assert OccursAt(s, needle, 0);
    }
    if s != [] {
      ContainsAt(s[1..], needle);
      if Contains(s[1..], needle) {
        var i :| OccursAt(s[1..], needle, i);
        assert s[i + 1..i + 1 + |needle|] == s[1..][i..i + |needle|];
        assert OccursAt(s, needle, i + 1);
      }
      if i :| OccursAt(s, needle, i) {
        if i > 0 {
          assert s[1..][i - 1..i - 1 + |needle|] == s[i..i + |needle|];
          assert OccursAt(s[1..], needle, i - 1);
        } else {
          assert s[..|needle|] == s[0..|needle|];
        }
      }
    } else {
      if i :| OccursAt(s, needle, i) {
        assert needle == [];
      }
    }
  }
}

=== FILE: records.dfy ===
/** The records the monitor keeps: one `Site` per monitored domain, with the
    certificate fields a probe cycle fills in. */
module Records {

  /** `None` plays the part of the "Unknown" sentinel the JSON store writes
      in place of a date or a day count. */
  datatype Option<+T> = None | Some(value: T) {
    function GetOr(default: T): T {
      match this
      case Some(v) => v
      case None => default
    }
  }

  datatype Status = Unknown | Good | Expiring | Expired | Error

  /** One entry of a site's `related_status` list. Dates are day ordinals. */
  datatype RelatedStatus = RelatedStatus(
    domain: string,
    hostname: string,
    status: Status,
    expiryDate: Option<int>,
    daysRemaining: Option<int>,
    sameCert: bool)

  /** A monitored domain. `relatedStatus` is `None` until the first probe
      cycle writes the key. */
  datatype Site = Site(
    id: int,
    url: string,
    name: string,
    status: Status,
    expiryDate: Option<int>,
    daysRemaining: Option<int>,
    addedDate: int,
    relatedDomains: seq<string>,
    relatedStatus: Option<seq<RelatedStatus>>)

  /** A record no probe has touched yet: status "unknown", expiry and days
      "Unknown", no `related_status` key. */
  predicate Unprobed(s: Site) {
    s.status == Unknown && s.expiryDate == None && s.daysRemaining == None && s.relatedStatus == None
  }
}

=== FILE: routes.dfy ===
/** The form handling of the web front end: the add form, bulk import and
    the per-site check. Flash messages and redirects become reply values. */
module Routes {
  import opened Records
  import opened PyStrings
  import opened Sequences
  import opened Store
  import opened Certificates

  /** The add form's scheme rule: anything not starting with "http" gets
      "https://" in front. A bare domain that itself begins with "http"
      (say "httpbin.org") is kept as typed. */
  function NormalizeUrl(url: string): (r: string)
    ensures StartsWith(r, "http")
    ensures StartsWith(url, "http") ==> r == url
    ensures !StartsWith(url, "http") ==> r == "https://" + url
  {
    if StartsWith(url, "http") then url
    else
      assert ("https://" + url)[..4] == "http";
      "https://" + url
  }

  lemma NormalizeIdempotent(url: string)
    ensures NormalizeUrl(NormalizeUrl(url)) == NormalizeUrl(url)
  {
  }

  /** A domain typed without a path is probed under its own name, whether
      or not the form added a scheme. */
  lemma NormalizeKeepsHost(d: string)
    requires '/' !in d
    ensures Hostname(NormalizeUrl(d)) == d
  {
    if StartsWith(d, "http") {
      HostnameOfBare(d);
    } else {
      HostnameOfUrl(d);
    }
  }

  /** A non-empty string that neither starts nor ends with whitespace. */
  predicate Trimmed(t: string) {
    t != "" && !IsSpace(t[0]) && !IsSpace(t[|t| - 1])
  }

  /** The stripped piece, unless stripping leaves nothing. */
  function KeepStripped(p: string): (r: seq<string>)
    ensures |r| <= 1
    ensures forall i :: 0 <= i < |r| ==> Trimmed(r[i]) && r[i] == Strip(p)
    ensures r == [] <==> Strip(p) == ""
  {
    var s := Strip(p);
    if s == "" then [] else [s]
  }

  /** Each piece stripped, empty pieces dropped, order kept. */
  function Cleaned(pieces: seq<string>): (r: seq<string>)
    ensures |r| <= |pieces|
    ensures forall i :: 0 <= i < |r| ==> Trimmed(r[i])
    decreases |pieces|
  {
    if pieces == [] then [] else KeepStripped(pieces[0]) + Cleaned(pieces[1..])
  }

  /** What survives cleaning is exactly the non-empty stripped pieces. */
  lemma {:induction false} CleanedMembers(pieces: seq<string>, d: string)
    ensures d in Cleaned(pieces) <==> d != "" && exists i :: 0 <= i < |pieces| && Strip(pieces[i]) == d
    decreases |pieces|
  {
    if pieces != [] {
      CleanedMembers(pieces[1..], d);
      assert forall i :: 1 <= i < |pieces| ==> pieces[i] == pieces[1..][i - 1];
      if i :| 0 <= i < |pieces| && Strip(pieces[i]) == d && d != "" {
        if i > 0 {
          assert Strip(pieces[1..][i - 1]) == d;
        }
      }
    }
  }

  /** Cleaning works piece by piece. */
  lemma {:induction false} CleanedConcat(a: seq<string>, b: seq<string>)
    ensures Cleaned(a + b) == Cleaned(a) + Cleaned(b)
    decreases |a|
  {
    if a == [] {
      assert a + b == b;
    } else {
      var k := KeepStripped(a[0]);
      assert Cleaned(a + b) == k + Cleaned(a[1..] + b) by {
        assert (a + b)[1..] == a[1..] + b;
        assert (a + b)[0] == a[0];
      }
      CleanedConcat(a[1..], b);
      ConsAssoc(Cleaned(a + b), k, Cleaned(a[1..] + b), Cleaned(a[1..]), Cleaned(b), Cleaned(a));
    }
  }

  function NormalizeAll(xs: seq<string>): (r: seq<string>)
    ensures |r| == |xs|
    ensures forall i :: 0 <= i < |xs| ==> r[i] == NormalizeUrl(xs[i])
  {
    seq(|xs|, i requires 0 <= i < |xs| => NormalizeUrl(xs[i]))
  }

  /** The related-domains field of the add form: comma-separated, each
      entry stripped, empties dropped, the scheme rule applied. */
  function ParseRelatedDomains(text: string): (r: seq<string>)
    ensures text == "" ==> r == []
    ensures |r| <= multiset(text)[','] + 1
    ensures forall i :: 0 <= i < |r| ==> StartsWith(r[i], "http")
  {
    if text == "" then []
    else
      SplitCount(text, ',');
      NormalizeAll(Cleaned(Split(text, ',')))
  }

  /** Entries typed as a comma-separated list come back one per entry, in
      order, as the scheme rule renders them. */
  lemma ParseRelatedOfList(entries: seq<string>)
    requires |entries| > 0
    requires forall i :: 0 <= i < |entries| ==> ',' !in entries[i]
    ensures ParseRelatedDomains(Join(entries, ',')) == NormalizeAll(Cleaned(entries))
  {
    var text := Join(entries, ',');
    JoinSplit(entries, ',');
    if text == "" {
      SplitEmpty(',');
      CleanedBlank();
    } else {
      SameArgument(Split(text, ','), entries);
    }
  }

  lemma SplitEmpty(sep: char)
    ensures Split("", sep) == [""]
  {
  }

  lemma CleanedBlank()
    ensures NormalizeAll(Cleaned([""])) == []
  {
    assert Strip("") == "";
  }

  /** Equal lists normalise alike; stated on plain variables so that the
      caller's definitions stay folded. */
  lemma SameArgument(a: seq<string>, b: seq<string>)
    requires a == b
    ensures NormalizeAll(Cleaned(a)) == NormalizeAll(Cleaned(b))
  {
  }

  datatype AddReply = UrlRequired | Added | AlreadyExists

  datatype AddResponse = AddResponse(reply: AddReply, disk: Disk)

  /** The add form's POST: an empty url is refused before the store is
      touched; otherwise the store call's answer decides the reply. */
  function AddRequest(disk: Disk, url: string, name: string, relatedText: string, today: int, saveOk: bool): (r: AddResponse)
    ensures url == "" ==> r == AddResponse(UrlRequired, disk)
    ensures url != "" ==>
      var before := View(disk, today, saveOk);
      var change := AddTo(before, NormalizeUrl(url), name, ParseRelatedDomains(relatedText), today);
      && (r.reply == Added <==> saveOk && change.Some?)
      && (r.reply == AlreadyExists <==> !(saveOk && change.Some?))
      && (r.reply == Added ==> View(r.disk, today, saveOk) == change.value)
      && (r.reply != Added ==> View(r.disk, today, saveOk) == before)
  {
    if url == "" then AddResponse(UrlRequired, disk)
    else
      var out := AddWebsite(disk, NormalizeUrl(url), name, ParseRelatedDomains(relatedText), today, saveOk);
      AddResponse(if out.ok then Added else AlreadyExists, out.disk)
  }

  /** A domain added bare and then again with "https://" in front is the
      same site: the second form, with no related domains, is refused. */
  lemma AddBareThenHttps(disk: Disk, d: string, name: string, name2: string, today: int)
    requires d != "" && !StartsWith(d, "http")
    requires AddRequest(disk, d, name, "", today, true).reply == Added
    ensures var first := AddRequest(disk, d, name, "", today, true);
      AddRequest(first.disk, "https://" + d, name2, "", today, true).reply == AlreadyExists
  {
    var url := "https://" + d;
    assert NormalizeUrl(url) == url by {
      assert url[..4] == "http";
    }
    var before := View(disk, today, true);
    var first := AddRequest(disk, d, name, "", today, true);
    AddToUrls(before, url, name, [], today, url);
  }

  /** The bulk-import field: split on commas when there is one, otherwise
      into lines; then strip and drop empties. */
  function BulkDomains(text: string): (r: seq<string>)
    ensures forall i :: 0 <= i < |r| ==> Trimmed(r[i])
    ensures ',' in text ==> |r| <= multiset(text)[','] + 1
    ensures ',' !in text ==> forall i :: 0 <= i < |r| ==> NoLineBreak(r[i])
  {
    if ',' in text then
      SplitCount(text, ',');
      Cleaned(Split(text, ','))
    else
      var lines := SplitLines(text);
      var r := Cleaned(lines);
      assert forall i :: 0 <= i < |r| ==> NoLineBreak(r[i]) by {
        forall i | 0 <= i < |r| ensures NoLineBreak(r[i]) {
          assert r[i] in r;
          CleanedMembers(lines, r[i]);
          var k :| 0 <= k < |lines| && Strip(lines[k]) == r[i];
          StripNoLineBreak(lines[k]);
        }
      }
      r
  }

  /** What survives is exactly the non-empty stripped comma pieces, or
      the non-empty stripped lines when there is no comma. */
  lemma BulkDomainsMembers(text: string, d: string)
    ensures ',' in text ==> (d in BulkDomains(text) <==>
      d != "" && exists i :: 0 <= i < |Split(text, ',')| && Strip(Split(text, ',')[i]) == d)
    ensures ',' !in text ==> (d in BulkDomains(text) <==>
      d != "" && exists i :: 0 <= i < |SplitLines(text)| && Strip(SplitLines(text)[i]) == d)
  {
    var pieces := if ',' in text then Split(text, ',') else SplitLines(text);
    BulkDomainsCleaned(text, pieces);
    CleanedMembers(pieces, d);
  }

  lemma BulkDomainsCleaned(text: string, pieces: seq<string>)
    requires pieces == if ',' in text then Split(text, ',') else SplitLines(text)
    ensures BulkDomains(text) == Cleaned(pieces)
  {
  }

  /** Comma-separated entries come back one per entry, stripped, blanks
      dropped, in the order typed. */
  lemma BulkCommaList(entries: seq<string>)
    requires |entries| >= 2
    requires forall i :: 0 <= i < |entries| ==> ',' !in entries[i]
    ensures BulkDomains(Join(entries, ',')) == Cleaned(entries)
  {
    var text := Join(entries, ',');
    assert text == entries[0] + [','] + Join(entries[1..], ',');
    assert text[|entries[0]|] == ',';
    JoinSplit(entries, ',');
  }

  /** Without a comma the text is taken line by line: the first line's
      domain, if any, comes first and the rest follow in order. */
  lemma BulkLinesCons(a: string, b: string)
    requires NoLineBreak(a) && ',' !in a && ',' !in b
    ensures BulkDomains(a + "\n" + b) == KeepStripped(a) + BulkDomains(b)
    ensures BulkDomains(a + "\r\n" + b) == KeepStripped(a) + BulkDomains(b)
  {
    SplitLinesCons(a, b);
    BulkLineStep(a, b, a + "\n" + b);
    BulkLineStep(a, b, a + "\r\n" + b);
  }

  /** The same for every other boundary `splitlines` recognises: a lone
      "\r", "\v", "\f", the separators U+001C to U+001E, U+0085, U+2028
      and U+2029. */
  lemma BulkLinesBreak(a: string, c: char, b: string)
    requires NoLineBreak(a) && IsLineBreak(c) && ',' !in a && ',' !in b
    requires c != '\r' || b == [] || b[0] != '\n'
    ensures BulkDomains(a + [c] + b) == KeepStripped(a) + BulkDomains(b)
  {
    SplitLinesBreak(a, c, b);
    BulkLineStep(a, b, a + [c] + b);
  }

  /** A single line without a comma, the final one included, gives its
      stripped domain, or nothing when it is blank. */
  lemma BulkSingleLine(a: string)
    requires NoLineBreak(a) && ',' !in a
    ensures BulkDomains(a) == KeepStripped(a)
  {
    if a != "" {
      SplitLinesLast(a);
      BulkDomainsCleaned(a, [a]);
      assert [a][1..] == [];
    }
  }

  lemma BulkLineStep(a: string, b: string, text: string)
    requires ',' !in text && ',' !in b
    requires SplitLines(text) == [a] + SplitLines(b)
    ensures BulkDomains(text) == KeepStripped(a) + BulkDomains(b)
  {
    var lines := [a] + SplitLines(b);
    assert lines[0] == a && lines[1..] == SplitLines(b);
  }

  /** Stripping keeps a break-free line break-free. */
  lemma StripNoLineBreak(s: string)
    requires NoLineBreak(s)
    ensures NoLineBreak(Strip(s))
  {
    var i, j :| 0 <= i <= j <= |s| && Strip(s) == s[i..j] && AllSpace(s[..i]) && AllSpace(s[j..]);
    assert forall k :: 0 <= k < j - i ==> s[i..j][k] == s[i + k];
  }

  predicate IsAsciiLetter(c: char) {
    'a' <= c <= 'z' || 'A' <= c <= 'Z'
  }

  predicate IsAsciiAlnum(c: char) {
    IsAsciiLetter(c) || '0' <= c <= '9'
  }

  predicate LabelChars(t: string) {
    forall i :: 0 <= i < |t| ==> IsAsciiAlnum(t[i]) || t[i] == '-'
  }

  predicate Letters(t: string) {
    forall i :: 0 <= i < |t| ==> IsAsciiLetter(t[i])
  }

  /** `[a-zA-Z0-9][a-zA-Z0-9-]{0,61}[a-zA-Z0-9]`. */
  predicate Label(t: string) {
    2 <= |t| <= 63 && IsAsciiAlnum(t[0]) && IsAsciiAlnum(t[|t| - 1]) && LabelChars(t)
  }

  /** `(?:\.[a-zA-Z]{2,})+`. */
  ghost predicate DotGroups(t: string)
    decreases |t|
  {
    |t| >= 3 && t[0] == '.'
    && exists j :: 3 <= j <= |t| && Letters(t[1..j]) && (j == |t| || DotGroups(t[j..]))
  }

  /** `re.match` of the bulk-import pattern: some prefix of the text is a
      label followed by dot groups; nothing is required of what follows. */
  ghost predicate PatternMatches(s: string) {
    exists k, p :: 0 <= k <= p <= |s| && Label(s[..k]) && DotGroups(s[k..p])
  }

  /** The pattern read operationally: the text before the first '.' is a
      label, and that '.' is followed by two ASCII letters. */
  predicate ValidDomain(s: string) {
    var k := Find(s, '.');
    k + 2 < |s| && Label(s[..k]) && IsAsciiLetter(s[k + 1]) && IsAsciiLetter(s[k + 2])
  }

  lemma LabelHasNoDot(t: string)
    requires LabelChars(t)
    ensures '.' !in t
  {
    forall i | 0 <= i < |t| ensures t[i] != '.' {
      assert IsAsciiAlnum(t[i]) || t[i] == '-';
    }
  }

  lemma ValidDomainMatches(s: string)
    requires ValidDomain(s)
    ensures PatternMatches(s)
  {
    var k := Find(s, '.');
    assert k + 2 < |s| && s[k] == '.' && IsAsciiLetter(s[k + 1]) && IsAsciiLetter(s[k + 2]);
    var t := s[k..k + 3];
    assert |t| == 3 && t[0] == s[k] && t[1] == s[k + 1] && t[2] == s[k + 2];
    var u := t[1..3];
    assert |u| == 2 && u[0] == t[1] && u[1] == t[2];
    assert Letters(u);
    assert DotGroups(t);
  }

  lemma MatchIsValidDomain(s: string)
    requires PatternMatches(s)
    ensures ValidDomain(s)
  {
    var k, p :| 0 <= k <= p <= |s| && Label(s[..k]) && DotGroups(s[k..p]);
    var t := s[k..p];
    var j :| 3 <= j <= |t| && Letters(t[1..j]) && (j == |t| || DotGroups(t[j..]));
    assert |t| >= 3 && t[0] == '.';
    assert t[0] == s[k] && t[1] == s[k + 1] && t[2] == s[k + 2];
    assert IsAsciiLetter(t[1..j][0]) && IsAsciiLetter(t[1..j][1]);
    LabelHasNoDot(s[..k]);
    assert s == s[..k] + ['.'] + s[k + 1..];
    FindAfter(s[..k], s[k + 1..], '.');
  }

  /** The operational reading agrees with the pattern on every text. */
  lemma ValidDomainIsPattern(s: string)
    ensures ValidDomain(s) <==> PatternMatches(s)
  {
    if ValidDomain(s) {
      ValidDomainMatches(s);
    }
    if PatternMatches(s) {
      MatchIsValidDomain(s);
    }
  }

  /** `re.match` anchors only at the start: whatever follows an accepted
      domain leaves it accepted. */
  lemma ValidDomainExtends(s: string, rest: string)
    requires ValidDomain(s)
    ensures ValidDomain(s + rest)
  {
    var k := Find(s, '.');
    assert s == s[..k] + ['.'] + s[k + 1..];
    FindAfter(s[..k], s[k + 1..] + rest, '.');
    assert s + rest == s[..k] + ['.'] + (s[k + 1..] + rest);
    assert (s + rest)[..k] == s[..k];
  }

  /** A first label of one character is refused, whatever follows. */
  lemma ShortLabelRejected(c: char, rest: string)
    requires c != '.'
    ensures !ValidDomain([c] + "." + rest)
  {
    FindAfter([c], rest, '.');
  }

  /** A record bulk import creates for an accepted domain. */
  predicate ImportedFrom(s: Site, domains: seq<string>) {
    exists d :: d in domains && ValidDomain(d) && s.url == "https://" + d && s.name == d
  }

  datatype BulkReply = NoDomains | Imported(added: nat, skipped: nat)

  /** The bulk-import POST. Every domain that fails the pattern is skipped,
      every other one is offered to `add_website` with no related domains,
      and the answers are tallied. Each add is a full load-modify-save. */
  method BulkImport(disk: Disk, text: string, today: int, saveOk: bool) returns (reply: BulkReply, after: Disk)
    ensures BulkDomains(text) == [] ==> reply == NoDomains && after == disk
    ensures BulkDomains(text) != [] ==> reply.Imported? && reply.added + reply.skipped == |BulkDomains(text)|
    ensures !saveOk && reply.Imported? ==> reply.added == 0
    ensures var base := View(disk, today, saveOk);
      var now := View(after, today, saveOk);
      && |now| == |base| + (if reply.Imported? then reply.added else 0)
      && now[..|base|] == base
      && forall j :: |base| <= j < |now| ==> ImportedFrom(now[j], BulkDomains(text))
    ensures saveOk ==> forall d :: d in BulkDomains(text) && ValidDomain(d) ==>
      UrlIn(View(after, today, saveOk), "https://" + d)
    ensures NoRepeatedUrl(View(after, today, saveOk), |View(disk, today, saveOk)|)
  {
    var domains := BulkDomains(text);
    if domains == [] {
      return NoDomains, disk;
    }
    ghost var base := View(disk, today, saveOk);
    ghost var now := base;
    var added, skipped := 0, 0;
    after := disk;
    var i := 0;
    while i < |domains|
      invariant 0 <= i <= |domains|
      invariant added + skipped == i
      invariant !saveOk ==> added == 0
      invariant now == View(after, today, saveOk)
      invariant |now| == |base| + added
      invariant now[..|base|] == base
      invariant forall j :: |base| <= j < |now| ==> ImportedFrom(now[j], domains)
      invariant NoRepeatedUrl(now, |base|)
      invariant saveOk ==> AcceptedPresent(now, domains, i)
    {
      var ok;
      ok, after := ImportOne(after, domains, i, today, saveOk, base);
      now := View(after, today, saveOk);
      if ok {
        added := added + 1;
      } else {
        skipped := skipped + 1;
      }
      i := i + 1;
    }
    reply := Imported(added, skipped);
  }

  /** One entry of the bulk import: skipped when it fails the pattern,
      otherwise offered to `add_website`, whose answer is returned. */
  method ImportOne(disk: Disk, domains: seq<string>, i: nat, today: int, saveOk: bool, ghost base: seq<Site>)
    returns (ok: bool, after: Disk)
    requires i < |domains|
    requires var prev := View(disk, today, saveOk);
      && |base| <= |prev| && prev[..|base|] == base
      && (forall j :: |base| <= j < |prev| ==> ImportedFrom(prev[j], domains))
      && NoRepeatedUrl(prev, |base|)
      && (saveOk ==> AcceptedPresent(prev, domains, i))
    ensures ok ==> saveOk && ValidDomain(domains[i])
    ensures var prev := View(disk, today, saveOk);
      var next := View(after, today, saveOk);
      && |next| == |prev| + (if ok then 1 else 0)
      && next[..|base|] == base
      && (forall j :: |base| <= j < |next| ==> ImportedFrom(next[j], domains))
      && NoRepeatedUrl(next, |base|)
      && (saveOk ==> AcceptedPresent(next, domains, i + 1))
  {
    ghost var prev := View(disk, today, saveOk);
    var d := domains[i];
    if !ValidDomain(d) {
      SkipStep(prev, domains, i);
      return false, disk;
    }
    var out := AddWebsite(disk, "https://" + d, d, [], today, saveOk);
    ImportStep(prev, i, domains, today, base, saveOk, out.ok, View(out.disk, today, saveOk));
    return out.ok, out.disk;
  }

  /** No record from index `n` on repeats the url of a record before it:
      a domain already stored, or accepted earlier in the same text, is
      skipped rather than added again. */
  predicate NoRepeatedUrl(sites: seq<Site>, n: nat) {
    forall j, k :: n <= j < |sites| && 0 <= k < j ==> sites[k].url != sites[j].url
  }

  /** A text that names one domain however many times adds at most one
      record: the repeats, like a domain already stored, are skipped. */
  lemma OneDomainAddedOnce(sites: seq<Site>, n: nat, domains: seq<string>, d: string)
    requires n <= |sites| && NoRepeatedUrl(sites, n)
    requires forall j :: n <= j < |sites| ==> ImportedFrom(sites[j], domains)
    requires forall k :: 0 <= k < |domains| ==> domains[k] == d
    ensures |sites| <= n + 1
  {
    if |sites| > n + 1 {
      SameUrlRepeats(sites, n);
    }
  }

  lemma SameUrlRepeats(sites: seq<Site>, n: nat)
    requires n + 1 < |sites| && sites[n].url == sites[n + 1].url
    ensures !NoRepeatedUrl(sites, n)
  {
  }

  /** Every accepted domain among the first `n` has its record. */
  predicate AcceptedPresent(sites: seq<Site>, domains: seq<string>, n: int) {
    forall j :: 0 <= j < n && j < |domains| && ValidDomain(domains[j]) ==> UrlIn(sites, "https://" + domains[j])
  }

  lemma SkipStep(sites: seq<Site>, domains: seq<string>, i: nat)
    requires i < |domains| && !ValidDomain(domains[i])
    ensures AcceptedPresent(sites, domains, i) ==> AcceptedPresent(sites, domains, i + 1)
  {
  }

  /** What one accepted domain does to the collection during bulk import. */
  lemma ImportStep(prev: seq<Site>, i: nat, domains: seq<string>, today: int, base: seq<Site>,
                   saveOk: bool, ok: bool, next: seq<Site>)
    requires i < |domains| && ValidDomain(domains[i])
    requires |base| <= |prev| && prev[..|base|] == base
    requires forall j :: |base| <= j < |prev| ==> ImportedFrom(prev[j], domains)
    requires NoRepeatedUrl(prev, |base|)
    requires saveOk ==> AcceptedPresent(prev, domains, i)
    requires var change := AddTo(prev, "https://" + domains[i], domains[i], [], today);
      && (ok <==> saveOk && change.Some?)
      && (ok ==> next == change.value)
      && (!ok ==> next == prev)
    ensures |next| == |prev| + (if ok then 1 else 0)
    ensures next[..|base|] == base
    ensures forall j :: |base| <= j < |next| ==> ImportedFrom(next[j], domains)
    ensures NoRepeatedUrl(next, |base|)
    ensures saveOk ==> AcceptedPresent(next, domains, i + 1)
  {
    var d := domains[i];
    var url := "https://" + d;
    var change := AddTo(prev, url, d, [], today);
    if saveOk && change.Some? {
      forall j | 0 <= j <= i && ValidDomain(domains[j]) ensures UrlIn(next, "https://" + domains[j]) {
        AddToUrls(prev, url, d, [], today, "https://" + domains[j]);
      }
    }
    if ok {
      assert next[..|prev|] == prev;
      assert next[|prev|].url == url && next[|prev|].name == d;
      assert ImportedFrom(next[|prev|], domains);
      assert next[..|base|] == prev[..|base|];
      assert forall j :: |base| <= j < |prev| ==> next[j] == prev[j];
      assert !UrlIn(prev, url);
    }
  }

  datatype CheckReply = NotFound | CheckFailed | Refreshed

  datatype CheckResponse = CheckResponse(reply: CheckReply, alerts: seq<Alert>, disk: Disk)

  /** The per-site check route: look the record up, probe it, and write
      the refreshed record back over the stored one. The reply does not
      depend on whether the write succeeds. */
  function CheckRoute(disk: Disk, id: int, topic: string, probe: Prober, today: int, saveOk: bool): (r: CheckResponse)
    ensures r.reply == NotFound <==> GetFrom(View(disk, today, saveOk), id).None?
    ensures var before := View(disk, today, saveOk);
      r.reply == CheckFailed <==> GetFrom(before, id).Some? && Hostname(GetFrom(before, id).value.url) == ""
    ensures r.reply != Refreshed || !saveOk ==> View(r.disk, today, saveOk) == View(disk, today, saveOk)
    ensures var before := View(disk, today, saveOk);
      r.reply == Refreshed && saveOk ==>
        GetFrom(View(r.disk, today, saveOk), id) == Some(CheckSite(GetFrom(before, id).value, probe))
    ensures var before := View(disk, today, saveOk);
      r.reply == Refreshed && saveOk ==>
        View(r.disk, today, saveOk) == UpdateIn(before, id, FullPatch(CheckSite(GetFrom(before, id).value, probe))).value
    ensures var before := View(disk, today, saveOk);
      r.alerts == (if r.reply == Refreshed then AlertOf(CheckSite(GetFrom(before, id).value, probe), topic) else [])
    ensures r.disk.seed == disk.seed
  {
    var fetched := GetWebsite(disk, id, today, saveOk);
    match fetched.site
    case None => CheckResponse(NotFound, [], fetched.disk)
    case Some(site) =>
      var run := CheckCertificates([site], topic, probe);
      if run.sites == [] then
        assert Probed([site]) == [];
        CheckResponse(CheckFailed, run.alerts, fetched.disk)
      else
        assert Probed([site]) == [site] by {
          assert Probed([site]) == (if Hostname(site.url) != "" then [site] else []) + Probed([]);
        }
        var checked := run.sites[0];
        assert run.sites == [checked];
        AlertsForOne(checked, topic);
        var out := UpdateWebsite(fetched.disk, id, FullPatch(checked), today, saveOk);
        RefreshedIsChecked(View(disk, today, saveOk), id, site, checked, probe);
        CheckResponse(Refreshed, run.alerts, out.disk)
  }

  /** Writing a checked record back over its stored copy makes the next get
      return exactly the checked record. */
  lemma RefreshedIsChecked(sites: seq<Site>, id: int, site: Site, checked: Site, probe: Prober)
    requires GetFrom(sites, id) == Some(site)
    requires checked == CheckSite(site, probe)
    ensures UpdateIn(sites, id, FullPatch(checked)).Some?
    ensures GetFrom(UpdateIn(sites, id, FullPatch(checked)).value, id) == Some(checked)
  {
    UpdateThenGet(sites, id, FullPatch(checked));
    FullPatchRestores(site, checked);
  }
}

=== FILE: sequences.dfy ===
/** Generic sequence helpers the other modules share: a first-match search
    and a regrouping step for proofs by induction over concatenations. */
module Sequences {
  import opened Records

  /** `x == k + (z + w)` regrouped, for `v == k + z`; stated on plain
      variables so that callers can close an inductive step without
      unfolding their own definitions. */
  lemma ConsAssoc<T>(x: seq<T>, k: seq<T>, y: seq<T>, z: seq<T>, w: seq<T>, v: seq<T>)
    requires x == k + y && y == z + w && v == k + z
    ensures x == v + w
  {
  }

  /** Index of the first element satisfying `p`. */
  function FirstIndex<T>(xs: seq<T>, p: T -> bool): (r: Option<nat>)
    ensures r.Some? ==> r.value < |xs| && p(xs[r.value]) && forall j :: 0 <= j < r.value ==> !p(xs[j])
    ensures r.None? ==> forall j :: 0 <= j < |xs| ==> !p(xs[j])
    decreases |xs|
  {
    if xs == [] then None
    else if p(xs[0]) then Some(0)
    else
      match FirstIndex(xs[1..], p)
      case None => None
      case Some(k) => Some(k + 1)
  }
}

=== FILE: store.dfy ===
/** The website store: the whole collection is read from one JSON document,
    changed in memory and written back whole. A missing or empty document is
    replaced by a one-time import of the seed list. */
module Store {
  import opened Records
  import opened Sequences

  /** One entry of the seed document; every key is optional. */
  datatype SeedItem = SeedItem(url: Option<string>, name: Option<string>, relatedDomains: Option<seq<string>>)

  /** The two documents the store reads. `None` stands for a file that is
      missing or cannot be parsed. */
  datatype Disk = Disk(websites: Option<seq<Site>>, seed: Option<seq<SeedItem>>)

  /** What seeding makes of one seed entry: the name falls back to the url,
      the url and related list to empty values, and nothing is probed yet. */
  predicate SeededFrom(s: Site, item: SeedItem, id: int, today: int) {
    && s.id == id
    && s.url == item.url.GetOr("")
    && s.name == item.name.GetOr(item.url.GetOr(""))
    && s.addedDate == today
    && s.relatedDomains == item.relatedDomains.GetOr([])
    && Unprobed(s)
  }

  function SeedFrom(items: seq<SeedItem>, firstId: int, today: int): (r: seq<Site>)
    ensures |r| == |items|
    ensures forall i :: 0 <= i < |r| ==> SeededFrom(r[i], items[i], firstId + i, today)
    decreases |items|
  {
    if items == [] then []
    else
      var item := items[0];
      var url := item.url.GetOr("");
      [Site(firstId, url, item.name.GetOr(url), Unknown, None, None, today, item.relatedDomains.GetOr([]), None)]
        + SeedFrom(items[1..], firstId + 1, today)
  }

  /** `load_seed_websites`: ids 1..n in seed order; a missing or unreadable
      seed file yields no records. */
  function SeedWebsites(seed: Option<seq<SeedItem>>, today: int): (r: seq<Site>)
    ensures seed.None? ==> r == []
    ensures seed.Some? ==> |r| == |seed.value|
    ensures seed.Some? ==> forall i :: 0 <= i < |r| ==> SeededFrom(r[i], seed.value[i], i + 1, today)
  {
    match seed
    case None => []
    case Some(items) => SeedFrom(items, 1, today)
  }

  predicate IdsDistinct(sites: seq<Site>) {
    forall i, j :: 0 <= i < j < |sites| ==> sites[i].id != sites[j].id
  }

  /** Seeding never hands out the same id twice. */
  lemma SeedIdsDistinct(seed: Option<seq<SeedItem>>, today: int)
    ensures IdsDistinct(SeedWebsites(seed, today))
  {
  }

  predicate HasStored(disk: Disk) {
    disk.websites.Some? && disk.websites.value != []
  }

  function Save(disk: Disk, sites: seq<Site>, saveOk: bool): Disk {
    if saveOk then disk.(websites := Some(sites)) else disk
  }

  /** The collection a load returns, and the disk after it. */
  datatype Loaded = Loaded(sites: seq<Site>, disk: Disk)

  /** `load_websites`: a non-empty stored collection is returned untouched;
      otherwise the seed list is imported and, when non-empty, persisted. */
  function Load(disk: Disk, today: int, saveOk: bool): (r: Loaded)
    ensures r.disk.seed == disk.seed
    ensures HasStored(disk) ==> r == Loaded(disk.websites.value, disk)
    ensures !HasStored(disk) ==> r.sites == SeedWebsites(disk.seed, today)
    ensures !HasStored(disk) && r.sites != [] && saveOk ==> r.disk.websites == Some(r.sites)
    ensures !HasStored(disk) && (r.sites == [] || !saveOk) ==> r.disk == disk
  {
    if HasStored(disk) then Loaded(disk.websites.value, disk)
    else
      var seeded := SeedWebsites(disk.seed, today);
      if seeded == [] then Loaded([], disk) else Loaded(seeded, Save(disk, seeded, saveOk))
  }

  /** Loading again right after a load sees the same collection and writes
      nothing more: the seed import happens at most once. */
  lemma LoadStable(disk: Disk, today: int, saveOk: bool)
    ensures Load(Load(disk, today, saveOk).disk, today, saveOk) == Load(disk, today, saveOk)
  {
  }

  /** The collection the next load would return. */
  function View(disk: Disk, today: int, saveOk: bool): seq<Site> {
    Load(disk, today, saveOk).sites
  }

  /** Writing a collection and loading it back returns it, except that an
      empty collection falls back to the seed import again. */
  lemma SaveThenLoad(disk: Disk, sites: seq<Site>, today: int)
    ensures View(Save(disk, sites, true), today, true) ==
      if sites == [] then SeedWebsites(disk.seed, today) else sites
  {
  }

  predicate UrlIn(sites: seq<Site>, url: string) {
    exists i :: 0 <= i < |sites| && sites[i].url == url
  }

  predicate IdIn(sites: seq<Site>, id: int) {
    exists i :: 0 <= i < |sites| && sites[i].id == id
  }

  function FindUrl(sites: seq<Site>, url: string): (r: Option<nat>)
    ensures r.None? <==> !UrlIn(sites, url)
    ensures r.Some? ==> r.value < |sites| && sites[r.value].url == url
    ensures r.Some? ==> forall j :: 0 <= j < r.value ==> sites[j].url != url
  {
    FirstIndex(sites, (s: Site) => s.url == url)
  }

  function FindId(sites: seq<Site>, id: int): (r: Option<nat>)
    ensures r.None? <==> !IdIn(sites, id)
    ensures r.Some? ==> r.value < |sites| && sites[r.value].id == id
    ensures r.Some? ==> forall j :: 0 <= j < r.value ==> sites[j].id != id
  {
    FirstIndex(sites, (s: Site) => s.id == id)
  }

  /** The related-domain merge of `add_website`: append each domain of
      `added` that the list does not hold yet. */
  function MergeRelated(existing: seq<string>, added: seq<string>): (r: seq<string>)
    ensures |existing| <= |r| && r[..|existing|] == existing
    ensures forall d :: d in added ==> d in r
    ensures forall d :: d in r ==> d in existing || d in added
    decreases |added|
  {
    if added == [] then existing
    else
      var next := if added[0] in existing then existing else existing + [added[0]];
      var r := MergeRelated(next, added[1..]);
      assert r[..|existing|] == next[..|existing|];
      assert added[0] in r by {
        assert added[0] in next;
        assert r[..|next|] == next;
      }
      assert added == [added[0]] + added[1..];
      r
  }

  /** Reference definition of the domains a merge appends: the entries of
      `added` that are not excluded and did not occur earlier in `added`, in
      argument order. */
  function FirstNew(added: seq<string>, excluded: seq<string>): seq<string>
    decreases |added|
  {
    if added == [] then []
    else
      var init := added[..|added| - 1];
      var d := added[|added| - 1];
      FirstNew(init, excluded) + (if d in excluded || d in init then [] else [d])
  }

  lemma {:induction false} FirstNewMembers(added: seq<string>, excluded: seq<string>, d: string)
    ensures d in FirstNew(added, excluded) <==> d in added && d !in excluded
    decreases |added|
  {
    if added != [] {
      var init := added[..|added| - 1];
      FirstNewMembers(init, excluded, d);
      assert added == init + [added[|added| - 1]];
    }
  }

  lemma {:induction false} FirstNewDistinct(added: seq<string>, excluded: seq<string>)
    ensures NoDuplicates(FirstNew(added, excluded))
    decreases |added|
  {
    if added != [] {
      var init := added[..|added| - 1];
      var d := added[|added| - 1];
      FirstNewDistinct(init, excluded);
      FirstNewMembers(init, excluded, d);
    }
  }

  predicate NoDuplicates(xs: seq<string>) {
    forall i, j :: 0 <= i < j < |xs| ==> xs[i] != xs[j]
  }

  /** Merging one more domain at the end appends it unless already present. */
  lemma {:induction false} MergeSnoc(existing: seq<string>, added: seq<string>, d: string)
    ensures MergeRelated(existing, added + [d]) ==
      var m := MergeRelated(existing, added); if d in m then m else m + [d]
    decreases |added|
  {
    if added == [] {
      assert ([d])[1..] == [];
    } else {
      var next := if added[0] in existing then existing else existing + [added[0]];
      assert MergeRelated(existing, added + [d]) == MergeRelated(next, added[1..] + [d]) by {
        assert (added + [d])[0] == added[0];
        assert (added + [d])[1..] == added[1..] + [d];
      }
      assert MergeRelated(existing, added) == MergeRelated(next, added[1..]);
      MergeSnoc(next, added[1..], d);
    }
  }

  lemma FirstNewSnoc(init: seq<string>, d: string, excluded: seq<string>)
    ensures FirstNew(init + [d], excluded) ==
      FirstNew(init, excluded) + (if d in excluded || d in init then [] else [d])
  {
    assert (init + [d])[..|init + [d]| - 1] == init;
  }

  lemma AppendStep(e: seq<string>, f: seq<string>, m: seq<string>, d: string, isNew: bool, merged: seq<string>, appended: seq<string>)
    requires m == e + f && (d in m <==> !isNew)
    requires merged == (if d in m then m else m + [d])
    requires appended == f + (if isNew then [d] else [])
    ensures merged == e + appended
  {
  }

  /** The merge keeps the old list as a prefix and appends exactly the new
      domains, each once, in argument order. */
  lemma {:induction false} MergeAppendsFirstNew(existing: seq<string>, added: seq<string>)
    ensures MergeRelated(existing, added) == existing + FirstNew(added, existing)
    decreases |added|
  {
    if added != [] {
      var init := added[..|added| - 1];
      var d := added[|added| - 1];
      var m := MergeRelated(existing, init);
      var f := FirstNew(init, existing);
      assert added == init + [d];
      assert m == existing + f by {
        MergeAppendsFirstNew(existing, init);
      }
      assert MergeRelated(existing, added) == (if d in m then m else m + [d]) by {
        MergeSnoc(existing, init, d);
      }
      assert FirstNew(added, existing) == f + (if d in existing || d in init then [] else [d]) by {
        FirstNewSnoc(init, d, existing);
      }
      assert d in m <==> d in existing || d in init by {
        FirstNewMembers(init, existing, d);
      }
      AppendStep(existing, f, m, d, !(d in existing || d in init),
        MergeRelated(existing, added), FirstNew(added, existing));
    }
  }

  /** A duplicate-free related list stays duplicate-free. */
  lemma MergeNoDuplicates(existing: seq<string>, added: seq<string>)
    requires NoDuplicates(existing)
    ensures NoDuplicates(MergeRelated(existing, added))
  {
    MergeAppendsFirstNew(existing, added);
    FirstNewDistinct(added, existing);
    var f := FirstNew(added, existing);
    var m := existing + f;
    forall i, j | 0 <= i < j < |m| ensures m[i] != m[j] {
      if j >= |existing| {
        FirstNewMembers(added, existing, m[j]);
        assert m[j] == f[j - |existing|];
        if i >= |existing| {
          assert m[i] == f[i - |existing|];
        } else {
          assert m[i] in existing;
        }
      }
    }
  }

  /** Merging domains that are all present already changes nothing. */
  lemma {:induction false} MergePresent(existing: seq<string>, added: seq<string>)
    requires forall d :: d in added ==> d in existing
    ensures MergeRelated(existing, added) == existing
    decreases |added|
  {
    if added != [] {
      MergePresent(existing, added[1..]);
    }
  }

  /** Repeating a merge with the same domains changes nothing. */
  lemma MergeIdempotent(existing: seq<string>, added: seq<string>)
    ensures MergeRelated(MergeRelated(existing, added), added) == MergeRelated(existing, added)
  {
    MergePresent(MergeRelated(existing, added), added);
  }

  function NewSite(id: int, url: string, name: string, related: seq<string>, today: int): Site {
    Site(id, url, if name == "" then url else name, Unknown, None, None, today, related, None)
  }

  /** `add_website` on the loaded collection. `None` means the call returns
      false without writing; `Some` is the collection it writes. An empty
      `name` or `related` stands for Python's falsy `None` as well. */
  function AddTo(sites: seq<Site>, url: string, name: string, related: seq<string>, today: int): (r: Option<seq<Site>>)
    ensures r.None? <==> UrlIn(sites, url) && related == []
    ensures !UrlIn(sites, url) ==>
      && r.Some? && |r.value| == |sites| + 1 && r.value[..|sites|] == sites
      && var s := r.value[|sites|];
         && s.id == |sites| + 1 && s.url == url && s.name == (if name == "" then url else name)
         && s.addedDate == today && s.relatedDomains == related && Unprobed(s)
    ensures UrlIn(sites, url) && related != [] ==>
      && r.Some? && |r.value| == |sites|
      && var k := FindUrl(sites, url).value;
         && r.value[k] == sites[k].(relatedDomains := MergeRelated(sites[k].relatedDomains, related))
         && forall j :: 0 <= j < |sites| && j != k ==> r.value[j] == sites[j]
  {
    match FindUrl(sites, url)
    case Some(k) =>
      if related == [] then None
      else Some(sites[k := sites[k].(relatedDomains := MergeRelated(sites[k].relatedDomains, related))])
    case None =>
      Some(sites + [NewSite(|sites| + 1, url, name, related, today)])
  }

  /** A successful add keeps every url already present and adds its own. */
  lemma AddToUrls(sites: seq<Site>, url: string, name: string, related: seq<string>, today: int, u: string)
    requires AddTo(sites, url, name, related, today).Some?
    ensures UrlIn(AddTo(sites, url, name, related, today).value, u) <==> UrlIn(sites, u) || u == url
  {
    var r := AddTo(sites, url, name, related, today).value;
    if UrlIn(sites, url) {
      var k := FindUrl(sites, url).value;
      assert forall j :: 0 <= j < |sites| ==> r[j].url == sites[j].url;
    } else {
      assert r[|sites|].url == url;
      assert forall j :: 0 <= j < |sites| ==> r[j] == sites[j];
    }
  }

  /** Repeating an add of the same url and related domains leaves the
      collection as the first add left it. */
  lemma AddIdempotent(sites: seq<Site>, url: string, name: string, name2: string, related: seq<string>, today: int)
    requires AddTo(sites, url, name, related, today).Some?
    ensures var once := AddTo(sites, url, name, related, today).value;
      AddTo(once, url, name2, related, today) == (if related == [] then None else Some(once))
  {
    var once := AddTo(sites, url, name, related, today).value;
    if UrlIn(sites, url) {
      var k := FindUrl(sites, url).value;
      assert FindUrl(once, url) == Some(k);
      MergeIdempotent(sites[k].relatedDomains, related);
      assert once[k := once[k].(relatedDomains := MergeRelated(once[k].relatedDomains, related))] == once;
    } else {
      assert once[|sites|].url == url;
      assert UrlIn(once, url);
      if related != [] {
        assert forall j :: 0 <= j < |sites| ==> once[j].url != url;
        var k := FindUrl(once, url).value;
        assert k == |sites|;
        MergePresent(related, related);
        assert once[k := once[k].(relatedDomains := MergeRelated(once[k].relatedDomains, related))] == once;
      }
    }
  }

  /** `remove_website` on the loaded collection: only the first record with
      the id goes, the rest keep their order. */
  function RemoveFrom(sites: seq<Site>, id: int): (r: Option<seq<Site>>)
    ensures r.None? <==> !IdIn(sites, id)
    ensures r.Some? ==>
      && |r.value| == |sites| - 1
      && var k := FindId(sites, id).value;
         && (forall j :: 0 <= j < k ==> r.value[j] == sites[j])
         && (forall j :: k <= j < |r.value| ==> r.value[j] == sites[j + 1])
  {
    match FindId(sites, id)
    case None => None
    case Some(k) =>
      var rest := sites[..k] + sites[k + 1..];
      assert forall j :: k <= j < |rest| ==> rest[j] == sites[j + 1];
      Some(rest)
  }

  /** `get_website` on the loaded collection: the first record with the id. */
  function GetFrom(sites: seq<Site>, id: int): (r: Option<Site>)
    ensures r.None? <==> !IdIn(sites, id)
    ensures r.Some? ==> exists k :: (0 <= k < |sites| && sites[k] == r.value && r.value.id == id
      && forall j :: 0 <= j < k ==> sites[j].id != id)
  {
    match FindId(sites, id)
    case None => None
    case Some(k) => Some(sites[k])
  }

  /** Number of records carrying the id. */
  function IdCount(sites: seq<Site>, id: int): nat
    decreases |sites|
  {
    if sites == [] then 0 else (if sites[0].id == id then 1 else 0) + IdCount(sites[1..], id)
  }

  lemma {:induction false} IdCountPositive(sites: seq<Site>, id: int)
    ensures IdCount(sites, id) > 0 <==> IdIn(sites, id)
    decreases |sites|
  {
    if sites != [] {
      IdCountPositive(sites[1..], id);
      if IdIn(sites[1..], id) {
        var i :| 0 <= i < |sites[1..]| && sites[1..][i].id == id;
        assert sites[i + 1].id == id;
      }
      if IdIn(sites, id) && sites[0].id != id {
        var i :| 0 <= i < |sites| && sites[i].id == id;
        assert sites[1..][i - 1].id == id;
      }
    }
  }

  lemma {:induction false} IdCountConcat(a: seq<Site>, b: seq<Site>, id: int)
    ensures IdCount(a + b, id) == IdCount(a, id) + IdCount(b, id)
    decreases |a|
  {
    if a != [] {
      IdCountConcat(a[1..], b, id);
      assert (a + b)[1..] == a[1..] + b;
    } else {
      assert a + b == b;
    }
  }

  /** After a removal the id is gone exactly when it was carried by one
      record only; with duplicate ids a later record still answers. */
  lemma RemoveThenGet(sites: seq<Site>, id: int)
    requires IdIn(sites, id)
    ensures GetFrom(RemoveFrom(sites, id).value, id).None? <==> IdCount(sites, id) == 1
  {
    var k := FindId(sites, id).value;
    var rest := RemoveFrom(sites, id).value;
    assert rest == sites[..k] + sites[k + 1..];
    assert sites == sites[..k] + ([sites[k]] + sites[k + 1..]);
    IdCountConcat(sites[..k], [sites[k]] + sites[k + 1..], id);
    IdCountConcat([sites[k]], sites[k + 1..], id);
    IdCountConcat(sites[..k], sites[k + 1..], id);
    IdCountPositive(sites[..k], id);
    IdCountPositive(rest, id);
    assert [sites[k]][1..] == [];
  }

  /** Ids come from the collection's length, so after a record other than
      the last is removed, the next add reuses the id of the last record. */
  lemma IdReuseAfterRemove(sites: seq<Site>, id: int, url: string, name: string, today: int)
    requires forall i :: 0 <= i < |sites| ==> sites[i].id == i + 1
    requires 1 <= id < |sites|
    requires forall i :: 0 <= i < |sites| ==> sites[i].url != url
    ensures RemoveFrom(sites, id).Some?
    ensures var removed := RemoveFrom(sites, id).value;
      AddTo(removed, url, name, [], today).Some? &&
      var added := AddTo(removed, url, name, [], today).value;
      |added| == |sites| && added[|added| - 1].id == added[|added| - 2].id
  {
    assert sites[id - 1].id == id;
    var removed := RemoveFrom(sites, id).value;
    assert FindId(sites, id) == Some(id - 1);
    assert removed[|removed| - 1] == sites[|sites| - 1];
    assert !UrlIn(removed, url) by {
      forall i | 0 <= i < |removed| ensures removed[i].url != url {
        if i < id - 1 { assert removed[i] == sites[i]; } else { assert removed[i] == sites[i + 1]; }
      }
    }
  }

  /** A partial update: each present field overwrites the record's field,
      as `dict.update` does. */
  datatype Patch = Patch(
    id: Option<int>,
    url: Option<string>,
    name: Option<string>,
    status: Option<Status>,
    expiryDate: Option<Option<int>>,
    daysRemaining: Option<Option<int>>,
    addedDate: Option<int>,
    relatedDomains: Option<seq<string>>,
    relatedStatus: Option<seq<RelatedStatus>>)

  const NoChange := Patch(None, None, None, None, None, None, None, None, None)

  function ApplyPatch(s: Site, p: Patch): Site {
    Site(
      p.id.GetOr(s.id),
      p.url.GetOr(s.url),
      p.name.GetOr(s.name),
      p.status.GetOr(s.status),
      p.expiryDate.GetOr(s.expiryDate),
      p.daysRemaining.GetOr(s.daysRemaining),
      p.addedDate.GetOr(s.addedDate),
      p.relatedDomains.GetOr(s.relatedDomains),
      if p.relatedStatus.Some? then p.relatedStatus else s.relatedStatus)
  }

  /** The patch that carries every field of `s`, as when a freshly checked
      record is written back over its stored copy. */
  function FullPatch(s: Site): Patch {
    Patch(Some(s.id), Some(s.url), Some(s.name), Some(s.status), Some(s.expiryDate),
      Some(s.daysRemaining), Some(s.addedDate), Some(s.relatedDomains), s.relatedStatus)
  }

  /** `update_website` on the loaded collection: only the first record with
      the id is patched. */
  function UpdateIn(sites: seq<Site>, id: int, p: Patch): (r: Option<seq<Site>>)
    ensures r.None? <==> !IdIn(sites, id)
    ensures r.Some? ==>
      && |r.value| == |sites|
      && var k := FindId(sites, id).value;
         && r.value[k] == ApplyPatch(sites[k], p)
         && forall j :: 0 <= j < |sites| && j != k ==> r.value[j] == sites[j]
  {
    match FindId(sites, id)
    case None => None
    case Some(k) => Some(sites[k := ApplyPatch(sites[k], p)])
  }

  /** Writing a whole record back restores it, except that a record without
      `related_status` leaves the stored one's in place. */
  lemma FullPatchRestores(t: Site, s: Site)
    ensures ApplyPatch(t, FullPatch(s)) == s.(relatedStatus := if s.relatedStatus.Some? then s.relatedStatus else t.relatedStatus)
  {
  }

  /** An update that keeps the id is seen by the next get, and an update
      without fields changes nothing. */
  lemma UpdateThenGet(sites: seq<Site>, id: int, p: Patch)
    requires IdIn(sites, id)
    requires p.id.None? || p.id == Some(id)
    ensures GetFrom(UpdateIn(sites, id, p).value, id) == Some(ApplyPatch(GetFrom(sites, id).value, p))
  {
    var k := FindId(sites, id).value;
    var r := UpdateIn(sites, id, p).value;
    assert r[k].id == id;
    assert FindId(r, id) == Some(k) by {
      forall j | 0 <= j < k ensures r[j].id != id {
        assert r[j] == sites[j];
      }
    }
  }

  lemma UpdateNoChange(sites: seq<Site>, id: int)
    requires IdIn(sites, id)
    ensures UpdateIn(sites, id, NoChange) == Some(sites)
  {
    var k := FindId(sites, id).value;
    assert ApplyPatch(sites[k], NoChange) == sites[k];
    assert sites[k := sites[k]] == sites;
  }

  /** The result of one store call: its boolean answer and the disk after. */
  datatype Outcome = Outcome(ok: bool, disk: Disk)

  /** Writes the changed collection, if any; the call answers the write's
      success, or false when there was nothing to write. */
  function Commit(loaded: Loaded, change: Option<seq<Site>>, saveOk: bool): Outcome {
    match change
    case None => Outcome(false, loaded.disk)
    case Some(sites) => Outcome(saveOk, Save(loaded.disk, sites, saveOk))
  }

  /** What a later load sees after a committed change: the written
      collection (with the seed fallback when it is empty), or the collection
      as it was when nothing was written. */
  lemma CommitView(disk: Disk, change: Option<seq<Site>>, today: int, saveOk: bool)
    ensures var loaded := Load(disk, today, saveOk);
      var out := Commit(loaded, change, saveOk);
      && (out.ok <==> saveOk && change.Some?)
      && out.disk.seed == disk.seed
      && (out.ok ==>
            View(out.disk, today, saveOk) == (if change.value == [] then SeedWebsites(disk.seed, today) else change.value))
      && (!out.ok ==> View(out.disk, today, saveOk) == loaded.sites)
  {
    LoadStable(disk, today, saveOk);
  }

  /** `add_website`: load, add, write. */
  function AddWebsite(disk: Disk, url: string, name: string, related: seq<string>, today: int, saveOk: bool): (r: Outcome)
    ensures var before := View(disk, today, saveOk);
      var change := AddTo(before, url, name, related, today);
      && (r.ok <==> saveOk && change.Some?)
      && (r.ok ==> View(r.disk, today, saveOk) == change.value)
      && r.disk.seed == disk.seed
      && (!r.ok ==> View(r.disk, today, saveOk) == before)
  {
    var loaded := Load(disk, today, saveOk);
    var change := AddTo(loaded.sites, url, name, related, today);
    CommitView(disk, change, today, saveOk);
    Commit(loaded, change, saveOk)
  }

  /** `remove_website`: load, remove, write. Removing the last record
      leaves an empty document, so the next load imports the seed again. */
  function RemoveWebsite(disk: Disk, id: int, today: int, saveOk: bool): (r: Outcome)
    ensures var before := View(disk, today, saveOk);
      var change := RemoveFrom(before, id);
      && (r.ok <==> saveOk && change.Some?)
      && (r.ok ==>
            View(r.disk, today, saveOk) == (if change.value == [] then SeedWebsites(disk.seed, today) else change.value))
      && r.disk.seed == disk.seed
      && (!r.ok ==> View(r.disk, today, saveOk) == before)
  {
    var loaded := Load(disk, today, saveOk);
    var change := RemoveFrom(loaded.sites, id);
    CommitView(disk, change, today, saveOk);
    Commit(loaded, change, saveOk)
  }

  /** `update_website`: load, patch, write. */
  function UpdateWebsite(disk: Disk, id: int, p: Patch, today: int, saveOk: bool): (r: Outcome)
    ensures var before := View(disk, today, saveOk);
      var change := UpdateIn(before, id, p);
      && (r.ok <==> saveOk && change.Some?)
      && (r.ok ==> View(r.disk, today, saveOk) == change.value)
      && r.disk.seed == disk.seed
      && (!r.ok ==> View(r.disk, today, saveOk) == before)
  {
    var loaded := Load(disk, today, saveOk);
    var change := UpdateIn(loaded.sites, id, p);
    CommitView(disk, change, today, saveOk);
    Commit(loaded, change, saveOk)
  }

  datatype Fetched = Fetched(site: Option<Site>, disk: Disk)

  /** `get_website`: a read, although the load inside it may import the seed. */
  function GetWebsite(disk: Disk, id: int, today: int, saveOk: bool): (r: Fetched)
    ensures r.site == GetFrom(View(disk, today, saveOk), id)
    ensures View(r.disk, today, saveOk) == View(disk, today, saveOk)
    ensures r.disk.seed == disk.seed
  {
    var loaded := Load(disk, today, saveOk);
    LoadStable(disk, today, saveOk);
    Fetched(GetFrom(loaded.sites, id), loaded.disk)
  }

  /** Adding a url twice without related domains: the second call answers
      false and writes nothing. */
  lemma AddTwiceRejected(disk: Disk, url: string, name: string, name2: string, today: int, saveOk: bool)
    requires AddWebsite(disk, url, name, [], today, saveOk).ok
    ensures var first := AddWebsite(disk, url, name, [], today, saveOk);
      var second := AddWebsite(first.disk, url, name2, [], today, saveOk);
      !second.ok && View(second.disk, today, saveOk) == View(first.disk, today, saveOk)
  {
    var before := View(disk, today, saveOk);
    AddIdempotent(before, url, name, name2, [], today);
  }
}
